=== FILE: README.md ===
# Prometheus line parser, modelled in Dafny

This project models the single-line parser of the `prometheus-parser` crate
(`lib/prometheus-parser/src/line.rs`). The parser reads one line of the
Prometheus text exposition format. It recognises three kinds of line:

- a sample: a metric name, an optional `{name="value",...}` label set, a value
  and an ignored timestamp;
- a `# TYPE <name> <kind>` header;
- anything else that starts with `#`, or a blank line.

Each grammar rule is a pure Dafny function over `string`. It returns nom's
`IResult`: either the remaining input together with the parsed value, or a
typed `ParserError`. The error variants follow their uses in the crate:
`ParseNameError`, `ParseFloatError`, `ExpectedToken` and `InvalidMetricKind`.
The rules compose the way the Rust functions do, by handing the remainder on.

The modules follow the structure of `line.rs`:

| module | file | what it models |
|---|---|---|
| `Text` | `text.dfy` | the character classes; `trim_space`, `sp`, and the `str::trim` used by `Line::parse_inner` |
| `Parsing` | `parsing.dfy` | `Option`, `ParserError`, nom's `IResult` |
| `Names` | `names.dfy` | `parse_name` |
| `Values` | `values.dfy` | `Metric::parse_value`, and the decimal literal grammar of nom's `double` |
| `EscapedStrings` | `escaped.dfy` | `Metric::parse_escaped_string`, and the escaping it undoes |
| `Labels`, `LabelsTheory` | `labels.dfy` | `parse_name_value`, `parse_labels_inner`, `parse_labels` |
| `Headers`, `HeadersTheory` | `headers.dfy` | `MetricKind`, `Header`, `Header::parse` |
| `Metrics`, `MetricsTheory` | `metrics.dfy` | `Metric`, `Metric::parse` |
| `Lines`, `LinesTheory` | `lines.dfy` | `Line`, `Line::parse_inner`, `Line::parse` |

Every rule has a partner, and lemmas connect the two:

- Each lexer has a printer: `RenderValue`, `Escape`, `HeaderText`, `ListText` and `LabelledText`.
  Round-trip lemmas parse the printed text back to the value, under any spacing the grammar allows.
  This includes no blank at all between a name and a value that starts with `+`, `-` or `.`, as in `m-1`.
  An empty label set may also have blanks before its optional comma, as in `{ ,}`.
- Label order does not matter when names are distinct: two pair lists that are permutations of each other read as the same map.
- Soundness lemmas cover `ParseName`, `ParseValue`, `ParseEscapedString`, `ParseNameValue` and `ParseHeader`.
  A success of one of these rules means that the blank-trimmed input was a written form of the result, followed by the remainder.
  The label set, sample and line rules have round trips, error lemmas and suffix lemmas, but no soundness lemma.
- Each failure point has error lemmas naming the exact `ParserError`.
- Suffix lemmas show that every successful rule leaves a suffix of its input.

The `*Examples` modules replay the crate's unit tests as lemmas.

Nom behaviour is modelled only as far as this file uses it:

- `alt` takes the first alternative that succeeds.
- `tag` is a prefix match.
- `fold_many0` stops at the first fragment that fails.
- `separated_list` never fails. It returns the input before a separator that is not followed by a pair.
- `opt` consumes nothing when its parser fails.

## Model

| member | source | states |
|---|---|---|
| Text.TrimSpace | lib/prometheus-parser/src/line.rs:244-246 | the result is a suffix of the input; only spaces and tabs were removed; the result does not start with a space or tab |
| Text.TrimSpaceOf | lib/prometheus-parser/src/line.rs:244-246 | any run of spaces and tabs in front of text that starts otherwise is removed exactly |
| Text.TrimSpaceSkipsBlanks | lib/prometheus-parser/src/line.rs:244-246 | leading spaces and tabs do not change what `trim_space` returns |
| Text.Sp | lib/prometheus-parser/src/line.rs:248-250 | the consumed part and the rest together give the input back; the consumed part is all blanks and the rest does not start with one |
| Text.SpAgreesWithTrimSpace | lib/prometheus-parser/src/line.rs:244-250 | `sp` leaves the same remainder as `trim_space` |
| Text.SpOf | lib/prometheus-parser/src/line.rs:248-250 | `sp` removes exactly the leading blanks in front of non-blank text |
| Text.TrimStart | lib/prometheus-parser/src/line.rs:212 | the leading part of `str::trim`: a suffix of the input, with only Unicode whitespace removed, not starting with whitespace |
| Text.TrimEnd | lib/prometheus-parser/src/line.rs:212 | the trailing part of `str::trim`: a prefix of the input, with only whitespace removed, not ending with whitespace |
| Text.TrimEmptyIffWhitespace | lib/prometheus-parser/src/line.rs:212-215 | a line trims to empty exactly when it is all whitespace |
| Text.TrimAround | lib/prometheus-parser/src/line.rs:212 | trimming whitespace around text with non-whitespace ends gives back that text |
| Names.NameLength | lib/prometheus-parser/src/line.rs:234-237 | the name is non-empty exactly when the text starts with a letter or `_`; it is a valid name and the longest run of name characters |
| Names.ParseName | lib/prometheus-parser/src/line.rs:232-242 | success exactly when the trimmed input starts with a letter or `_`; the name is valid, maximal, and followed by the remainder; a failure is `ParseNameError` with the trimmed input |
| Names.ParseNameRoundTrip | lib/prometheus-parser/src/line.rs:232-242 | blanks, a valid name and text not continuing the name parse back to that name with that text left |
| Names.ParseNameRejectsDigitFirst | lib/prometheus-parser/src/line.rs:232-242 | a name cannot start with a digit: `ParseNameError` carrying the text after the blanks |
| Names.ParseNameExampleSimple | lib/prometheus-parser/src/line.rs:316-319 | `abc_def` is read, and `  .` is left |
| Names.ParseNameExampleUnderscores | lib/prometheus-parser/src/line.rs:321-324 | `__9A0bc_def__` is read, and `  .` is left |
| Names.ParseNameExampleDigits | lib/prometheus-parser/src/line.rs:326-327 | `99` is rejected |
| Values.ScanFloat | lib/prometheus-parser/src/line.rs:72 | a recognised decimal literal is well formed: digits on at least one side of the point, and exponent digits after `e` |
| Values.ScanFloatSound | lib/prometheus-parser/src/line.rs:72 | the recognised literal, printed, is exactly the consumed text |
| Values.ScanFloatRoundTrip | lib/prometheus-parser/src/line.rs:72 | a printed well-formed literal followed by a delimiting tail is recognised as that literal, and the tail is left |
| Values.ScanFloatRejects | lib/prometheus-parser/src/line.rs:72 | text not starting with a digit, sign or point has no literal |
| Values.ParseValue | lib/prometheus-parser/src/line.rs:66-80 | numbers read are well-formed literals; every failure is `ParseFloatError` carrying the input after its leading blanks |
| Values.ParseValueSound | lib/prometheus-parser/src/line.rs:66-80 | the trimmed input is the printed value followed by the remainder, which is a suffix of the input |
| Values.ParseValueSentinel | lib/prometheus-parser/src/line.rs:68-71 | `+Inf`, `-Inf` and `Nan` give the two infinities and NaN, whatever follows them |
| Values.NoTagBeforeLiteral | lib/prometheus-parser/src/line.rs:68-72 | no decimal literal starts with `+Inf`, `-Inf` or `Nan`, so the tag order never shadows a number |
| Values.ParseValueRoundTrip | lib/prometheus-parser/src/line.rs:66-80 | blanks, any printed value and a delimiting tail parse back to the value, leaving the tail |
| Values.ParseValueRejects | lib/prometheus-parser/src/line.rs:74-79 | text that can start no alternative fails with `ParseFloatError` carrying the text after the blanks |
| ValuesExamples.ExamplePosInf | lib/prometheus-parser/src/line.rs:400-403 | `+Inf` gives positive infinity, leaving `  .` |
| ValuesExamples.ExampleNegInf | lib/prometheus-parser/src/line.rs:405-408 | `-Inf` gives negative infinity, leaving `  .` |
| ValuesExamples.ExampleNan | lib/prometheus-parser/src/line.rs:410-413 | `Nan` gives NaN, leaving `  .` |
| ValuesExamples.ExampleZero | lib/prometheus-parser/src/line.rs:416 | `0` is the literal with whole part `0` |
| ValuesExamples.ExampleQuarter | lib/prometheus-parser/src/line.rs:417 | `0.25` is read with its fraction |
| ValuesExamples.ExampleNegative | lib/prometheus-parser/src/line.rs:418 | `-10.25` is read with its sign |
| ValuesExamples.ExampleNegativeExponent | lib/prometheus-parser/src/line.rs:419 | `-10e-25` is read with a negative exponent |
| ValuesExamples.ExamplePositiveExponent | lib/prometheus-parser/src/line.rs:420 | `-10e+25` is read with an explicitly positive exponent |
| ValuesExamples.ExampleYear | lib/prometheus-parser/src/line.rs:421 | `2020` is read whole |
| ValuesExamples.ExampleTrailingDot | lib/prometheus-parser/src/line.rs:422 | `1.` is read with a point and no fraction digits |
| EscapedStrings.Fragments | lib/prometheus-parser/src/line.rs:129-156 | the fragment fold always succeeds and never consumes more than its input |
| EscapedStrings.FragmentsComplete | lib/prometheus-parser/src/line.rs:129-156 | on a decodable body followed by a stopping character, the fold yields the decoded body and stops at that character |
| EscapedStrings.FragmentsSound | lib/prometheus-parser/src/line.rs:129-156 | what the fold consumed is a decodable body that decodes to the fold's value |
| EscapedStrings.ParseEscapedString | lib/prometheus-parser/src/line.rs:122-169 | every failure is `ExpectedToken "\""`; a success consumes at least the two quotes of the blank-trimmed input |
| EscapedStrings.ParseEscapedStringSound | lib/prometheus-parser/src/line.rs:122-169 | a success read a quote, a body that decodes to the value, and a quote; the remainder is a suffix of the input |
| EscapedStrings.ParseEscapedStringComplete | lib/prometheus-parser/src/line.rs:122-169 | any decodable body between quotes is read as its decoding, leaving the tail |
| EscapedStrings.ParseQuoted | lib/prometheus-parser/src/line.rs:158-168 | after a decodable body the closing quote decides: success, or `ExpectedToken "\""` at the stopping point |
| EscapedStrings.DecodeEscape | lib/prometheus-parser/src/line.rs:119-121 | escaping `\`, `"` and line feed, then decoding, gives back any string |
| EscapedStrings.EscapeConcat | lib/prometheus-parser/src/line.rs:119-121 | escaping works character by character |
| EscapedStrings.EscapeVerbatim | lib/prometheus-parser/src/line.rs:130 | text without `\`, `"` or line feed is written unchanged |
| EscapedStrings.ParseEscapedStringRoundTrip | lib/prometheus-parser/src/line.rs:119-169 | any string, escaped and quoted, is read back exactly and the tail is left |
| EscapedStrings.ParseEscapedStringNoOpeningQuote | lib/prometheus-parser/src/line.rs:158-168 | text not starting with a quote fails with `ExpectedToken "\""` at that text |
| EscapedStrings.ParseEscapedStringBadEscape | lib/prometheus-parser/src/line.rs:129-168 | a backslash followed by anything but `n`, `"` or `\` fails with `ExpectedToken "\""` at the backslash |
| EscapedStrings.ParseEscapedStringUnterminated | lib/prometheus-parser/src/line.rs:158-168 | a body with no closing quote fails with `ExpectedToken "\""` at the end of input |
| EscapedStringsExamples.ExampleEmpty | lib/prometheus-parser/src/line.rs:278-281 | `""` is the empty string |
| EscapedStringsExamples.ExampleBackslash | lib/prometheus-parser/src/line.rs:283-286 | `\\` is one backslash |
| EscapedStringsExamples.ExampleQuotes | lib/prometheus-parser/src/line.rs:288-291 | `\"\"` is two quotes |
| EscapedStringsExamples.ExampleAllEscapes | lib/prometheus-parser/src/line.rs:293-296 | the three escapes decode in order |
| EscapedStringsExamples.ExampleBackslashThenN | lib/prometheus-parser/src/line.rs:298-301 | `\\n` is a backslash and `n`, not a line feed |
| EscapedStringsExamples.ExampleEmoji | lib/prometheus-parser/src/line.rs:303-306 | a non-ASCII character and inner spaces are kept verbatim |
| Labels.ParseNameValue | lib/prometheus-parser/src/line.rs:82-91 | a pair read has a valid name and consumes input |
| Labels.PairList | lib/prometheus-parser/src/line.rs:94 | every pair in the list has a valid name |
| Labels.Collect | lib/prometheus-parser/src/line.rs:96 | the map's keys are exactly the names of the pairs |
| Labels.ParseLabelsInner | lib/prometheus-parser/src/line.rs:93-97 | never fails, and every key is a valid name |
| Labels.ParseLabels | lib/prometheus-parser/src/line.rs:100-117 | every failure is `ExpectedToken "}"`; every key is a valid name |
| LabelsTheory.ParseNameValueSound | lib/prometheus-parser/src/line.rs:82-91 | a success read, from the blank-trimmed input, the pair's name, blanks, `=`, blanks and a quoted body that decodes to the pair's value, and then the remainder |
| LabelsTheory.ParseNameValueRoundTrip | lib/prometheus-parser/src/line.rs:82-91 | a written pair, with blanks around the name, `=` and value, is read back; the blanks after the value are left |
| LabelsTheory.MorePairsRoundTrip | lib/prometheus-parser/src/line.rs:94 | after a comma, each further comma-separated written pair is read, in order, up to a point where no pair follows |
| LabelsTheory.PairListRoundTrip | lib/prometheus-parser/src/line.rs:94 | a non-empty written list yields its pairs, and leaves the blanks after the last value |
| LabelsTheory.PairListOf | lib/prometheus-parser/src/line.rs:94 | any written list, empty or not, before an optional comma and `}` yields its pairs |
| LabelsTheory.ParseLabelsRoundTrip | lib/prometheus-parser/src/line.rs:100-117 | blanks, `{`, written pairs, an optional trailing comma, blanks and `}` give the map of the pairs and leave the tail |
| LabelsTheory.ParseLabelsWithoutBrace | lib/prometheus-parser/src/line.rs:103-104 | without `{` the map is empty and only the leading blanks are consumed |
| LabelsTheory.ParseLabelsUnseparated | lib/prometheus-parser/src/line.rs:105-112 | pairs followed by the end of input or by anything but a comma or `}` fail with `ExpectedToken "}"` where the list stopped |
| LabelsTheory.ParseLabelsDanglingComma | lib/prometheus-parser/src/line.rs:93-112 | a comma followed by the end of input, or by neither a pair nor `}` (such as `,,`), fails with `ExpectedToken "}"` after that comma |
| LabelsTheory.ParseLabelsBadFirstPair | lib/prometheus-parser/src/line.rs:93-112 | a first pair that does not parse, including none at the end of input, leaves the list empty and fails with `ExpectedToken "}"` at that point |
| LabelsTheory.ParseLabelsCutOff | lib/prometheus-parser/src/line.rs:105-112 | a set cut off after its pairs, with no `}`, fails with `ExpectedToken "}"` at the blanks after the last value |
| LabelsTheory.ParseLabelsCutOffAfterComma | lib/prometheus-parser/src/line.rs:93-112 | a set cut off after a comma fails with `ExpectedToken "}"` at the blanks after that comma |
| LabelsTheory.ParseLabelsOpenOnly | lib/prometheus-parser/src/line.rs:100-117 | a `{` followed only by blanks fails with `ExpectedToken "}"` at those blanks |
| LabelsTheory.ParseNameValueUnterminated | lib/prometheus-parser/src/line.rs:82-91 | a pair whose quoted value never closes does not parse |
| LabelsTheory.ParseLabelsUnterminated | lib/prometheus-parser/src/line.rs:100-117 | a set whose first value never closes fails with `ExpectedToken "}"` at that pair |
| LabelsTheory.CollectLastWins | lib/prometheus-parser/src/line.rs:96 | a repeated key keeps the value of its last occurrence |
| LabelsTheory.CollectOrderInsensitive | lib/prometheus-parser/src/line.rs:96 | two pair lists with the same multiset of pairs and no repeated name collect to the same map |
| LabelsTheory.ParseLabelsOrderInsensitive | lib/prometheus-parser/src/line.rs:100-117 | two label sets whose written pairs are permutations of each other, with distinct names, parse to the same result |
| LabelsTheory.ParseLabelsEmptyRoundTrip | lib/prometheus-parser/src/line.rs:93-117 | blanks, `{`, blanks, an optional comma, blanks and `}` give the empty map and leave the tail, as in `{ ,}` |
| LabelsTheory.ParseNameValueSuffix | lib/prometheus-parser/src/line.rs:82-91 | the remainder of a pair is a suffix of its input |
| LabelsTheory.MorePairsSuffix | lib/prometheus-parser/src/line.rs:94 | the remainder of the repeated part of the list is a suffix of its input |
| LabelsTheory.PairListSuffix | lib/prometheus-parser/src/line.rs:94 | the remainder of the list is a suffix of its input |
| LabelsTheory.OptCommaSuffix | lib/prometheus-parser/src/line.rs:95 | the optional comma leaves a suffix of its input |
| LabelsTheory.ParseLabelsSuffix | lib/prometheus-parser/src/line.rs:100-117 | the remainder of a label set is a suffix of its input |
| LabelsExamples.ExampleEmptySet | lib/prometheus-parser/src/line.rs:439-442 | `{}` is the empty map |
| LabelsExamples.ExampleOnePair | lib/prometheus-parser/src/line.rs:444-447 | `{name="value"}` is a one-entry map |
| LabelsExamples.ExampleTrailingComma | lib/prometheus-parser/src/line.rs:449-452 | a trailing comma before `}` is accepted |
| LabelsExamples.ExampleMixedSpacing | lib/prometheus-parser/src/line.rs:454-460 | blanks around names, `=`, values and commas, and values holding `=`, `}`, `,` and an escaped quote, are all read |
| LabelsExamples.ExampleNoBrace | lib/prometheus-parser/src/line.rs:462-465 | `100` is no label set: empty map, `100  .` left |
| LabelsExamples.ExampleUnterminated | lib/prometheus-parser/src/line.rs:469-473 | `{name="value}` fails with `ExpectedToken "}"`, not with a plain combinator error |
| LabelsExamples.ExampleCutOff | lib/prometheus-parser/src/line.rs:105-112 | `{ a="b" ` with no `}` fails with `ExpectedToken "}"` at the final blank |
| LabelsExamples.ExampleCutOffAfterComma | lib/prometheus-parser/src/line.rs:105-112 | `{ a="b" ,` fails with `ExpectedToken "}"` at the end of input |
| LabelsExamples.ExampleLoneBrace | lib/prometheus-parser/src/line.rs:105-112 | a lone `{` fails with `ExpectedToken "}"` at the end of input |
| LabelsExamples.ExampleSpacedComma | lib/prometheus-parser/src/line.rs:93-117 | `{ ,}x` is the empty map with `x` left |
| LabelsExamples.ExampleSwappedPairs | lib/prometheus-parser/src/line.rs:93-117 | `{a="1",b="2"}` and `{b="2",a="1"}` parse to the same result |
| LabelsExamples.ExampleAdjacentPairs | lib/prometheus-parser/src/line.rs:475-476 | two pairs without a comma fail |
| LabelsExamples.ExampleDoubleComma | lib/prometheus-parser/src/line.rs:478-479 | `,,` between pairs fails |
| Headers.MatchKind | lib/prometheus-parser/src/line.rs:187-193 | a kind is found exactly when the text starts with some kind keyword, and the keyword is what is consumed |
| Headers.ParseHeader | lib/prometheus-parser/src/line.rs:174-198 | a header read has a valid name; failures are `ExpectedToken`, `ParseNameError` or `InvalidMetricKind` |
| Headers.KindAfterName | lib/prometheus-parser/src/line.rs:186-197 | the header keeps the name read before; an unknown keyword is `InvalidMetricKind` at the text after the blanks |
| HeadersTheory.MatchKeyword | lib/prometheus-parser/src/line.rs:187-193 | each kind's keyword is matched as that kind, even though `summary` is tried before `histogram` |
| HeadersTheory.ParseHeaderRoundTrip | lib/prometheus-parser/src/line.rs:174-198 | `#`, `TYPE`, a name and a keyword, with any blanks between them (at least one before the keyword), give that header and leave the tail |
| HeadersTheory.ParseHeaderSound | lib/prometheus-parser/src/line.rs:174-198 | a success read, from the blank-trimmed input, `#`, blanks, `TYPE`, blanks, the header's name, blanks and its kind keyword, and then the remainder |
| HeadersTheory.ParseHeaderNoHash | lib/prometheus-parser/src/line.rs:176-179 | text not starting with `#` fails with `ExpectedToken "#"` at that text |
| HeadersTheory.ParseHeaderNoType | lib/prometheus-parser/src/line.rs:180-184 | `#` not followed by `TYPE` fails with `ExpectedToken "TYPE"` at the text after the blanks |
| HeadersTheory.ParseHeaderBadName | lib/prometheus-parser/src/line.rs:185 | `# TYPE` followed by no name fails with `ParseNameError` |
| HeadersTheory.ParseHeaderInvalidKind | lib/prometheus-parser/src/line.rs:186-196 | an unknown kind keyword fails with `InvalidMetricKind` at the text after the blanks |
| HeadersTheory.ParseHeaderSuffix | lib/prometheus-parser/src/line.rs:174-198 | the remainder of a header is a suffix of its input |
| HeadersExamples.ExampleCounter | lib/prometheus-parser/src/line.rs:337-346 | `#  TYPE abc_def counter` is a counter header |
| HeadersExamples.ExampleGauge | lib/prometheus-parser/src/line.rs:348-357 | tabs between the tokens are accepted |
| HeadersExamples.ExampleHistogram | lib/prometheus-parser/src/line.rs:359-368 | `histogram` is read although `summary` is tried first |
| HeadersExamples.ExampleSummary | lib/prometheus-parser/src/line.rs:370-379 | `summary` is read |
| HeadersExamples.ExampleUntyped | lib/prometheus-parser/src/line.rs:381-390 | `untyped` is read |
| HeadersExamples.ExampleKeywordPrefix | lib/prometheus-parser/src/line.rs:187-193 | keywords are prefix matches: `counterfoo` is a counter, leaving `foo` |
| HeadersExamples.ExampleHelp | lib/prometheus-parser/src/line.rs:181-184 | a HELP comment is no header: `ExpectedToken "TYPE"` |
| Metrics.ParseMetric | lib/prometheus-parser/src/line.rs:50-63 | a sample read has a valid name, valid label keys and a well-formed number; failures are those of the name, label and value rules |
| MetricsTheory.ParseMetricRoundTrip | lib/prometheus-parser/src/line.rs:50-63 | a name, a written label set and a value, with any blanks between, give that sample and leave the tail |
| MetricsTheory.ParseMetricUnlabelledRoundTrip | lib/prometheus-parser/src/line.rs:50-63 | a name, blanks and a value give a sample with no labels; the blanks may be absent when the value starts with a character no name contains |
| MetricsTheory.ParseMetricBadName | lib/prometheus-parser/src/line.rs:52 | no name gives `ParseNameError` |
| MetricsTheory.ParseMetricBadLabels | lib/prometheus-parser/src/line.rs:53 | a failing label set fails the sample with the label set's own error |
| MetricsTheory.ParseMetricBadValue | lib/prometheus-parser/src/line.rs:54 | a name followed by no value gives `ParseFloatError` at the text after the blanks |
| MetricsTheory.ParseMetricSuffix | lib/prometheus-parser/src/line.rs:50-63 | the remainder of a sample is a suffix of its input |
| Lines.ParseLineInner | lib/prometheus-parser/src/line.rs:211-221 | nothing matches only for a non-empty trimmed line not starting with `#`; names in the lines read are valid |
| Lines.ParseLine | lib/prometheus-parser/src/line.rs:224-228 | a failure needs a non-empty trimmed line not starting with `#`; sample names are valid |
| LinesTheory.ParseLineFails | lib/prometheus-parser/src/line.rs:211-228 | a line fails exactly when, trimmed, it is non-empty, does not start with `#` and is not a sample |
| LinesTheory.ParseLineInnerSuffix | lib/prometheus-parser/src/line.rs:211-221 | what is left over is a suffix of the trimmed line |
| LinesTheory.ParseLineBlank | lib/prometheus-parser/src/line.rs:212-215 | a whitespace-only line gives no line |
| LinesTheory.HashIsNoSample | lib/prometheus-parser/src/line.rs:217 | text starting with `#` is never a sample |
| LinesTheory.ParseLineComment | lib/prometheus-parser/src/line.rs:216-220 | a `#` line that is not a TYPE header gives no line |
| LinesTheory.ParseLineHeader | lib/prometheus-parser/src/line.rs:216-220 | a TYPE header line gives that header |
| LinesTheory.ParseLineMetric | lib/prometheus-parser/src/line.rs:216-220 | a line that reads as a sample gives that sample, whatever is left over |
| LinesTheory.ParseLineLabelledSample | lib/prometheus-parser/src/line.rs:211-228 | a sample with labels, followed by any tail such as a timestamp, gives that sample |
| LinesTheory.ParseLineUnlabelledSample | lib/prometheus-parser/src/line.rs:211-228 | a sample without labels, followed by any tail, gives that sample, also with no blank before a signed value |
| LinesTheory.ParseLineTypeHeader | lib/prometheus-parser/src/line.rs:211-228 | a written TYPE header, with whitespace around it, gives that header |
| LinesTheory.HelpLine | lib/prometheus-parser/src/line.rs:211-228 | a `# HELP` line gives no line |
| LinesTheory.OneLabelLine | lib/prometheus-parser/src/line.rs:211-228 | `name{key="value"} v tail` gives that one-label sample |
| LinesExamples.ExampleEmptyLine | lib/prometheus-parser/src/line.rs:484-489 | the empty lines of the test give no line |
| LinesExamples.ExampleIndentOnly | lib/prometheus-parser/src/line.rs:521 | the indentation-only last line of the test gives no line |
| LinesExamples.ExampleHelpLine | lib/prometheus-parser/src/line.rs:485 | the HELP line of the test gives no line |
| LinesExamples.ExampleTypeLine | lib/prometheus-parser/src/line.rs:486 | the TYPE line of the test gives a counter header |
| LinesExamples.ExampleMinimalistic | lib/prometheus-parser/src/line.rs:494 | a name and a value give an unlabelled sample |
| LinesExamples.ExampleSignedNoGap | lib/prometheus-parser/src/line.rs:50-63 | `m-1` is a sample: the name stops at `-` and the value follows directly |
| LinesExamples.ExampleInfNoGap | lib/prometheus-parser/src/line.rs:50-63 | `m+Inf` is a sample with positive infinity |
| LinesExamples.ExampleWeird | lib/prometheus-parser/src/line.rs:497 | `+Inf` followed by a negative timestamp gives positive infinity; the timestamp is ignored |
| LinesExamples.ExampleBucket | lib/prometheus-parser/src/line.rs:502 | a bucket line gives its `le` label and count |

## Left out

- Conversion to `f64` is left out (`double`, line 72). A number is kept as the literal it was read from: sign, digits, optional point, fraction and exponent. The model proves nothing about IEEE rounding, float equality or NaN.
- Values.ScanFloat: follows nom 5's `double` as built without its `lexical` feature, which recognises literals with `recognize_float`:
  - an optional sign;
  - digits with an optional point and fraction, or a point followed by digits;
  - an optional exponent whose digits are mandatory.
- Values.ParseValue: nom 5 turns on `lexical` by default, and then `double` hands the text to the `lexical-core` float parser. That parser also reads spellings such as `inf`, `infinity` and `NaN`, which the model rejects. So `m inf` may read as a sample in the crate but is `Failed` in the model. The crate's manifest is not part of this model, and the `lexical-core` grammar is not modelled.
- Names are ASCII, as the doc comment of `parse_name` states (`[a-zA-Z_][a-zA-Z0-9_]*`). The code uses Unicode `is_alphabetic` and `is_alphanumeric`, so it accepts more, for example accented letters. The Unicode tables are not modelled.
- `str::trim` is modelled with the Unicode White_Space characters. `trim_space` and `sp` are exact: they skip spaces and tabs.
- The nom error plumbing is not modelled. This covers `nom::Err`, the `From`/`ParseError` conversions in the crate root, and the difference between recoverable and fatal errors. Every error is treated as recoverable, so `alt` and `separated_list` go on past it.
  - The crate root is not part of this model.
  - As a result, every failure of `parse_labels` is `ExpectedToken "}"`. This includes pairs without a separator and a double comma: `separated_list` stops before them, and then the `}` is missing.
- Lines.ParseLine: a failure is `Failed`, with no error value. Which error `alt` reports when all three alternatives fail depends on nom's error merging, which is not modelled.
- Timestamps are not parsed, exactly as in `Metric::parse`. They are part of the text that `Line::parse` drops.
- The labels are a Dafny `map`. The ordering of a `BTreeMap` is not modelled.
- The multi-line test at `line.rs:484-522` is not modelled as a whole. This covers the `lines()` splitting and the final `all(is_ok)`.
  - Its HELP, TYPE, minimal, weird and bucket lines are modelled as examples.
  - The other sample lines are covered by the general lemmas `LinesTheory.ParseLineLabelledSample` and `LinesTheory.ParseLineUnlabelledSample` rather than one by one. This includes the escaped-label line at 491.
- LabelsTheory.ParseLabelsRoundTrip, MetricsTheory.ParseMetricRoundTrip, LinesTheory.ParseLineLabelledSample: the label set, sample and line rules are proved complete for written input but have no soundness lemma. That a successful parse came from written input is stated only through the soundness of their parts and the suffix lemmas.
- HeadersTheory.ParseHeaderRoundTrip: it needs at least one blank between the name and the kind keyword. Without one, `parse_name` reads the keyword as part of the name.

=== FILE: escaped.dfy ===
/**
 `Metric::parse_escaped_string`: a double-quoted label value. Between the
 quotes, a run of characters other than `"` and `\` is copied as is, and the
 escapes `\n`, `\"` and `\\` stand for a line feed, a double quote and a
 backslash. Every failure is reported as a missing `"`.
 */
module EscapedStrings {
  import opened Text
  import opened Parsing

  /** The character that the escape `\c` stands for, if `c` names one. */
  function EscapedChar(c: char): Option<char> {
    if c == 'n' then Some('\n')
    else if c == '"' then Some('"')
    else if c == '\\' then Some('\\')
    else None
  }

  /** `s` starts with a backslash and a character that names an escape. */
  predicate StartsWithEscape(s: string) {
    |s| > 1 && s[0] == '\\' && EscapedChar(s[1]).Some?
  }

  /** Where the fragment loop stops: at the end, at a `"`, or at a backslash that starts no escape. */
  predicate Stops(s: string) {
    s == [] || (!IsPlain(s[0]) && !StartsWithEscape(s))
  }

  /** The reference decoder, one character at a time: the value a quoted body stands for, or None if the body holds a bare `"` or a bad escape. */
  function Decode(body: string): Option<string> {
    if |body| == 0 then
      Some([])
    else if IsPlain(body[0]) then
      var d := Decode(body[1..]);
      if d.Some? then Some([body[0]] + d.value) else None
    else if StartsWithEscape(body) then
      var d := Decode(body[2..]);
      if d.Some? then Some([EscapedChar(body[1]).value] + d.value) else None
    else
      None
  }

  /** How a label value is written between quotes: backslash, double quote and line feed escaped, everything else as is. */
  function Escape(s: string): string {
    if |s| == 0 then [] else EscapeOne(s[0]) + Escape(s[1..])
  }

  /** How one character of a label value is written. */
  function EscapeOne(c: char): string {
    if c == '\\' then "\\\\"
    else if c == '"' then "\\\""
    else if c == '\n' then "\\n"
    else [c]
  }

  /** nom's `fold_many0` over the fragment parser: maximal plain runs and escapes, appended in order, until the first fragment fails. */
  function Fragments(s: string): (r: Scan<string>)
    ensures r.Match? && |r.rest| <= |s|
    decreases |s|
  {
    if |s| > 0 && IsPlain(s[0]) then
      var n := Span(s, Plain);
      var more := Fragments(s[n..]);
      Match(s[..n] + more.value, more.rest)
    else if StartsWithEscape(s) then
      var more := Fragments(s[2..]);
      Match([EscapedChar(s[1]).value] + more.value, more.rest)
    else
      Match([], s)
  }

  /** The reference decoder copies a plain run unchanged. */
  lemma {:induction false} DecodeRun(run: string, rest: string)
    requires All(run, Plain)
    ensures Decode(run + rest) == (if Decode(rest).Some? then Some(run + Decode(rest).value) else None)
  {
    if |run| > 0 {
      var s := run + rest;
      assert s[0] == run[0] && IsPlain(run[0]);
      assert s[1..] == run[1..] + rest;
      DecodeRun(run[1..], rest);
      var d := Decode(rest);
      assert Decode(s) == (if Decode(s[1..]).Some? then Some([s[0]] + Decode(s[1..]).value) else None);
      if d.Some? {
        assert [run[0]] + (run[1..] + d.value) == run + d.value;
      }
    } else {
      assert run + rest == rest;
      if Decode(rest).Some? {
        assert run + Decode(rest).value == Decode(rest).value;
      }
    }
  }

  /** A plain run at the front of a body stops at the body's first non-plain character, or at the stopping point after it. */
  lemma RunWithin(body: string, q: string)
    requires Stops(q)
    ensures Span(body + q, Plain) == Span(body, Plain)
  {
    var m := Span(body, Plain);
    if m < |body| {
      assert body + q == body[..m] + (body[m..] + q);
      SpanOf(body[..m], body[m..] + q, Plain);
    } else {
      assert body[..m] == body;
      SpanOf(body, q, Plain);
    }
  }

  /** Completeness: a body the reference decoder accepts, followed by a stopping point, is read in full. */
  lemma {:induction false} FragmentsComplete(body: string, q: string)
    requires Decode(body).Some?
    requires Stops(q)
    ensures Fragments(body + q) == Match(Decode(body).value, q)
    decreases |body|
  {
    if |body| == 0 {
      assert body + q == q;
    } else if IsPlain(body[0]) {
      var m := Span(body, Plain);
      assert Decode(body) == Some(body[..m] + Decode(body[m..]).value) by {
        assert body == body[..m] + body[m..];
        DecodeRun(body[..m], body[m..]);
      }
      FragmentsComplete(body[m..], q);
      RunStep(body, q);
    } else {
      FragmentsComplete(body[2..], q);
      EscapeStep(body, q);
    }
  }

  /** On a body followed by a stopping point, the fragment loop's first plain run is the body's first plain run. */
  lemma RunStep(body: string, q: string)
    requires |body| > 0 && IsPlain(body[0])
    requires Stops(q)
    ensures var m := Span(body, Plain);
      Fragments(body + q) == Match(body[..m] + Fragments(body[m..] + q).value, Fragments(body[m..] + q).rest)
  {
    var m := Span(body, Plain);
    RunWithin(body, q);
    RunSlices(body, q, m);
    RunStepOf(body + q, m, body[..m], body[m..] + q);
  }

  lemma RunSlices(body: string, q: string, m: nat)
    requires m <= |body|
    ensures (body + q)[..m] == body[..m] && (body + q)[m..] == body[m..] + q
  {
  }

  /** One step of the fragment loop over a plain run, with the run and what follows it named. */
  lemma RunStepOf(s: string, m: nat, run: string, after: string)
    requires |s| > 0 && IsPlain(s[0]) && m == Span(s, Plain)
    requires s[..m] == run && s[m..] == after
    ensures Fragments(s) == Match(run + Fragments(after).value, Fragments(after).rest)
  {
    FragmentsRun(s);
  }

  /** On a body that starts with an escape, the fragment loop reads that escape first. */
  lemma EscapeStep(body: string, q: string)
    requires |body| > 0 && !IsPlain(body[0])
    requires Decode(body).Some?
    ensures StartsWithEscape(body)
    ensures Decode(body) == Some([EscapedChar(body[1]).value] + Decode(body[2..]).value)
    ensures Fragments(body + q) == Match([EscapedChar(body[1]).value] + Fragments(body[2..] + q).value, Fragments(body[2..] + q).rest)
  {
    var s := body + q;
    assert s[..2] == body[..2];
    assert s[2..] == body[2..] + q;
  }

  /** `r` is what the fragment loop returns on `s` when it read a body the reference decoder accepts, with the same value, and stopped where it had to. */
  predicate ReadsBody(s: string, r: Scan<string>) {
    && r.Match?
    && |r.rest| <= |s|
    && s == s[..|s| - |r.rest|] + r.rest
    && Decode(s[..|s| - |r.rest|]) == Some(r.value)
    && Stops(r.rest)
  }

  /** Soundness: whatever the fragment loop consumed is a body the reference decoder accepts, with the same value. */
  lemma {:induction false} FragmentsSound(s: string)
    ensures ReadsBody(s, Fragments(s))
    decreases |s|
  {
    if |s| > 0 && IsPlain(s[0]) {
      FragmentsSound(s[Span(s, Plain)..]);
      SoundAfterRun(s);
    } else if StartsWithEscape(s) {
      FragmentsSound(s[2..]);
      SoundAfterEscape(s);
    } else {
      assert s[..|s|] == [] + s;
    }
  }

  lemma SoundAfterRun(s: string)
    requires |s| > 0 && IsPlain(s[0])
    requires ReadsBody(s[Span(s, Plain)..], Fragments(s[Span(s, Plain)..]))
    ensures ReadsBody(s, Fragments(s))
  {
    var n := Span(s, Plain);
    var t := s[n..];
    var r := Fragments(t);
    var p := t[..|t| - |r.rest|];
    assert Fragments(s) == Match(s[..n] + r.value, r.rest) by {
      FragmentsRun(s);
    }
    assert s[..|s| - |r.rest|] == s[..n] + p && s == s[..|s| - |r.rest|] + r.rest by {
      Glue(s, n, r.rest);
    }
    assert Decode(s[..n] + p) == Some(s[..n] + r.value) by {
      DecodeRun(s[..n], p);
    }
  }

  /** Consuming `n` characters and then a prefix of what follows consumes a prefix of the whole. */
  lemma Glue(s: string, n: nat, rest: string)
    requires n <= |s|
    requires |rest| <= |s| - n && s[n..] == s[n..][..|s| - n - |rest|] + rest
    ensures s[..|s| - |rest|] == s[..n] + s[n..][..|s| - n - |rest|]
    ensures s == s[..|s| - |rest|] + rest
  {
  }

  /** One step of the fragment loop over a plain run. */
  lemma FragmentsRun(s: string)
    requires |s| > 0 && IsPlain(s[0])
    ensures var n := Span(s, Plain);
      Fragments(s) == Match(s[..n] + Fragments(s[n..]).value, Fragments(s[n..]).rest)
  {
  }

  lemma SoundAfterEscape(s: string)
    requires !(|s| > 0 && IsPlain(s[0])) && StartsWithEscape(s)
    requires ReadsBody(s[2..], Fragments(s[2..]))
    ensures ReadsBody(s, Fragments(s))
  {
    var t := s[2..];
    var r := Fragments(t);
    var p := t[..|t| - |r.rest|];
    assert Fragments(s) == Match([EscapedChar(s[1]).value] + r.value, r.rest);
    assert s[..|s| - |r.rest|] == s[..2] + p && s == s[..|s| - |r.rest|] + r.rest by {
      Glue(s, 2, r.rest);
    }
    assert Decode(s[..2] + p) == Some([EscapedChar(s[1]).value] + r.value) by {
      assert (s[..2] + p)[2..] == p;
      assert (s[..2] + p)[..2] == s[..2];
    }
  }

  /** A quoted label value after optional blanks; the remainder starts right after the closing quote. */
  function ParseEscapedString(input: string): (r: IResult<string>)
    ensures r.Err? ==> r.error.ExpectedToken? && r.error.expected == "\""
    ensures r.Ok? ==> |r.rest| + 2 <= |TrimSpace(input)| && |r.rest| < |input|
  {
    var t := TrimSpace(input);
    if |t| == 0 || t[0] != '"' then
      Err(ExpectedToken("\"", t))
    else
      var body := Fragments(t[1..]);
      if |body.rest| > 0 && body.rest[0] == '"' then
        Ok(body.rest[1..], body.value)
      else
        Err(ExpectedToken("\"", body.rest))
  }

  /** On success, the blank-trimmed input is an opening quote, a body the reference decoder maps to the value, a closing quote, and the remainder. */
  lemma ParseEscapedStringSound(input: string)
    ensures var r := ParseEscapedString(input);
      var t := TrimSpace(input);
      r.Ok? ==>
        && |r.rest| + 2 <= |t|
        && t == "\"" + t[1..|t| - |r.rest| - 1] + "\"" + r.rest
        && Decode(t[1..|t| - |r.rest| - 1]) == Some(r.value)
        && IsSuffix(r.rest, input)
  {
    var r := ParseEscapedString(input);
    var t := TrimSpace(input);
    if r.Ok? {
      QuotedSteps(input, t);
      QuotedSound(t);
      var body := t[1..|t| - |r.rest| - 1];
      assert IsSuffix(r.rest, input) by {
        SuffixOfConcat("\"" + body + "\"", r.rest);
        SuffixTransitive(r.rest, t, input);
      }
    }
  }

  /** A quote, the text the fragment loop reads, and a closing quote. */
  lemma QuotedSound(t: string)
    requires |t| > 0 && t[0] == '"'
    requires var f := Fragments(t[1..]); |f.rest| > 0 && f.rest[0] == '"'
    ensures var f := Fragments(t[1..]);
      var rest := f.rest[1..];
      && |rest| + 2 <= |t|
      && t == "\"" + t[1..|t| - |rest| - 1] + "\"" + rest
      && Decode(t[1..|t| - |rest| - 1]) == Some(f.value)
  {
    var s := t[1..];
    var f := Fragments(s);
    FragmentsSound(s);
    QuoteGlue(t, s, s[..|s| - |f.rest|], f.rest, f.rest[1..]);
  }

  /** A quote, a body, and what follows the body starting with a quote: the body sits between the two quotes. */
  lemma QuoteGlue(t: string, s: string, body: string, after: string, rest: string)
    requires |t| > 0 && t[0] == '"' && s == t[1..]
    requires |after| > 0 && after[0] == '"' && rest == after[1..]
    requires |after| <= |s| && body == s[..|s| - |after|] && s == body + after
    ensures |rest| + 2 <= |t|
    ensures t[1..|t| - |rest| - 1] == body
    ensures t == "\"" + body + "\"" + rest
  {
    assert after == "\"" + rest;
    assert t == "\"" + s;
    Associate("\"", body, "\"", rest);
  }

  /** Completeness: blanks, a quote, any body the reference decoder accepts, a quote and any tail are read as the decoded value, leaving exactly the tail. */
  lemma ParseEscapedStringComplete(blanks: string, body: string, tail: string)
    requires All(blanks, Blank)
    requires Decode(body).Some?
    ensures ParseEscapedString(blanks + "\"" + body + "\"" + tail) == Ok(tail, Decode(body).value)
  {
    var q := "\"" + tail;
    assert blanks + "\"" + body + "\"" + tail == blanks + "\"" + body + q;
    ParseQuoted(blanks, body, q);
    assert q[1..] == tail;
  }

  /** After blanks, a quote and a body the reference decoder accepts, the loop stops where the body ends; the outcome depends only on whether a quote follows. */
  lemma ParseQuoted(blanks: string, body: string, q: string)
    requires All(blanks, Blank)
    requires Decode(body).Some?
    requires Stops(q)
    ensures ParseEscapedString(blanks + "\"" + body + q)
      == if |q| > 0 && q[0] == '"' then Ok(q[1..], Decode(body).value) else Err(ExpectedToken("\"", q))
  {
    var t := "\"" + (body + q);
    OpenQuote(blanks, body, q);
    TrimSpaceOf(blanks, t);
    FragmentsComplete(body, q);
    QuotedSteps(blanks + "\"" + body + q, t);
  }

  lemma OpenQuote(blanks: string, body: string, q: string)
    ensures blanks + "\"" + body + q == blanks + ("\"" + (body + q))
    ensures ("\"" + (body + q))[1..] == body + q
  {
  }

  /** Once the blanks are gone and a quote opens, the fragment loop and the closing quote decide the outcome. */
  lemma QuotedSteps(input: string, t: string)
    requires TrimSpace(input) == t && |t| > 0 && t[0] == '"'
    ensures var f := Fragments(t[1..]);
      ParseEscapedString(input)
        == if |f.rest| > 0 && f.rest[0] == '"' then Ok(f.rest[1..], f.value) else Err(ExpectedToken("\"", f.rest))
  {
  }

  /** Escaping then decoding gives back the original value. */
  lemma {:induction false} DecodeEscape(s: string)
    ensures Decode(Escape(s)) == Some(s)
  {
    if |s| > 0 {
      DecodeEscape(s[1..]);
      DecodeOne(s[0], Escape(s[1..]));
      assert s == [s[0]] + s[1..];
    }
  }

  /** One written character, then text the decoder accepts, decodes to that character followed by the decoded text. */
  lemma DecodeOne(c: char, rest: string)
    requires Decode(rest).Some?
    ensures Decode(EscapeOne(c) + rest) == Some([c] + Decode(rest).value)
  {
    var e := EscapeOne(c) + rest;
    if c == '\\' || c == '"' || c == '\n' {
      assert e[0] == '\\' && e[2..] == rest;
    } else {
      assert e[0] == c && e[1..] == rest;
    }
  }

  /** Any label value, escaped and quoted, reads back as itself and leaves exactly what follows the closing quote. */
  lemma ParseEscapedStringRoundTrip(blanks: string, s: string, tail: string)
    requires All(blanks, Blank)
    ensures ParseEscapedString(blanks + "\"" + Escape(s) + "\"" + tail) == Ok(tail, s)
  {
    DecodeEscape(s);
    ParseEscapedStringComplete(blanks, Escape(s), tail);
  }

  /** Input that does not start with a quote after its blanks is rejected at once. */
  lemma ParseEscapedStringNoOpeningQuote(blanks: string, s: string)
    requires All(blanks, Blank)
    requires s == [] || (!IsBlank(s[0]) && s[0] != '"')
    ensures ParseEscapedString(blanks + s) == Err(ExpectedToken("\"", s))
  {
    TrimSpaceOf(blanks, s);
  }

  /** A backslash followed by anything but `n`, `"` or `\` stops the body there, and the missing closing quote is reported at the backslash. */
  lemma ParseEscapedStringBadEscape(blanks: string, body: string, c: char, tail: string)
    requires All(blanks, Blank)
    requires Decode(body).Some?
    requires EscapedChar(c).None?
    ensures ParseEscapedString(blanks + "\"" + body + ("\\" + [c] + tail)) == Err(ExpectedToken("\"", "\\" + [c] + tail))
  {
    var q := "\\" + [c] + tail;
    assert q[0] == '\\' && q[1] == c;
    ParseQuoted(blanks, body, q);
  }

  /** A body that runs to the end of the input without a closing quote is reported with nothing left. */
  lemma ParseEscapedStringUnterminated(blanks: string, body: string)
    requires All(blanks, Blank)
    requires Decode(body).Some?
    ensures ParseEscapedString(blanks + "\"" + body) == Err(ExpectedToken("\"", []))
  {
    assert blanks + "\"" + body == blanks + "\"" + body + [];
    ParseQuoted(blanks, body, []);
  }

  /** Escaping works character by character, so it distributes over concatenation. */
  lemma {:induction false} EscapeConcat(a: string, b: string)
    ensures Escape(a + b) == Escape(a) + Escape(b)
  {
    if |a| == 0 {
      assert a + b == b;
    } else {
      assert (a + b)[0] == a[0];
      assert (a + b)[1..] == a[1..] + b;
      EscapeConcat(a[1..], b);
      Associate3(EscapeOne(a[0]), Escape(a[1..]), Escape(b));
    }
  }

  /** Text with no backslash, double quote or line feed is written as is. */
  lemma {:induction false} EscapeVerbatim(s: string)
    requires All(s, Plain)
    requires forall i :: 0 <= i < |s| ==> s[i] != '\n'
    ensures Escape(s) == s
  {
    if |s| > 0 {
      assert s[0] != '\n' && IsPlain(s[0]);
      assert forall i :: 0 <= i < |s[1..]| ==> s[1..][i] == s[i + 1];
      EscapeVerbatim(s[1..]);
      assert [s[0]] + s[1..] == s;
    }
  }
}

module EscapedStringsExamples {
  import opened Text
  import opened Parsing
  import opened EscapedStrings

  /** The examples below write each value with `Escape` between quotes, after the blanks `"  \t "`, and follow it with `"  ."`. */
  lemma Quoted(input: string, s: string, written: string)
    requires Escape(s) == written
    requires input == "  \t " + "\"" + written + "\"" + "  ."
    ensures ParseEscapedString(input) == Ok("  .", s)
  {
    ParseEscapedStringRoundTrip("  \t ", s, "  .");
  }

  lemma ExampleEmpty()
    ensures ParseEscapedString("  \t \"\"  .") == Ok("  .", "")
  {
    assert "  \t \"\"  ." == "  \t " + "\"" + "" + "\"" + "  .";
    Quoted("  \t \"\"  .", "", "");
  }

  lemma ExampleBackslash()
    ensures ParseEscapedString("  \t \"a\\\\ asdf\"  .") == Ok("  .", "a\\ asdf")
  {
    EscapeBackslash();
    assert "  \t \"a\\\\ asdf\"  ." == "  \t " + "\"" + "a\\\\ asdf" + "\"" + "  .";
    Quoted("  \t \"a\\\\ asdf\"  .", "a\\ asdf", "a\\\\ asdf");
  }

  lemma EscapeBackslash()
    ensures Escape("a\\ asdf") == "a\\\\ asdf"
  {
    EscapeConcat("a\\", " asdf");
    EscapeBackslashParts();
  }

  lemma EscapeBackslashParts()
    ensures "a\\" + " asdf" == "a\\ asdf"
    ensures "a\\\\" + " asdf" == "a\\\\ asdf"
    ensures Escape("a\\") == "a\\\\"
    ensures Escape(" asdf") == " asdf"
  {
  }

  lemma ExampleQuotes()
    ensures ParseEscapedString("  \t \"\\\"\\\"\"  .") == Ok("  .", "\"\"")
  {
    assert Escape("\"\"") == "\\\"\\\"";
    assert "  \t \"\\\"\\\"\"  ." == "  \t " + "\"" + "\\\"\\\"" + "\"" + "  .";
    Quoted("  \t \"\\\"\\\"\"  .", "\"\"", "\\\"\\\"");
  }

  lemma ExampleAllEscapes()
    ensures ParseEscapedString("  \t \"\\\"\\\\\\n\"  .") == Ok("  .", "\"\\\n")
  {
    assert Escape("\"\\\n") == "\\\"\\\\\\n";
    assert "  \t \"\\\"\\\\\\n\"  ." == "  \t " + "\"" + "\\\"\\\\\\n" + "\"" + "  .";
    Quoted("  \t \"\\\"\\\\\\n\"  .", "\"\\\n", "\\\"\\\\\\n");
  }

  /** An escaped backslash followed by `n` is a backslash and the letter n, not a line feed. */
  lemma ExampleBackslashThenN()
    ensures ParseEscapedString("  \t \"\\\\n\"  .") == Ok("  .", "\\n")
  {
    assert Escape("\\n") == "\\\\n";
    assert "  \t \"\\\\n\"  ." == "  \t " + "\"" + "\\\\n" + "\"" + "  .";
    Quoted("  \t \"\\\\n\"  .", "\\n", "\\\\n");
  }

  /** Characters outside ASCII, and blanks inside the quotes, are copied as they are. */
  lemma ExampleEmoji()
    ensures ParseEscapedString("  \t \"  \U{1F602}  \"  .") == Ok("  .", "  \U{1F602}  ")
  {
    EscapeEmoji();
    assert "  \t \"  \U{1F602}  \"  ." == "  \t " + "\"" + "  \U{1F602}  " + "\"" + "  .";
    Quoted("  \t \"  \U{1F602}  \"  .", "  \U{1F602}  ", "  \U{1F602}  ");
  }

  lemma EscapeEmoji()
    ensures Escape("  \U{1F602}  ") == "  \U{1F602}  "
  {
    EscapeVerbatim("  \U{1F602}  ");
  }
}

=== FILE: headers.dfy ===
/**
 `Header::parse`: a `# TYPE <metric_name> <metric_type>` line. The kind
 keywords are matched as prefixes, in the order counter, gauge, summary,
 histogram, untyped, and whatever follows the keyword is left unconsumed.
 */
module Headers {
  import opened Text
  import opened Parsing
  import opened Names

  datatype MetricKind = Counter | Gauge | Histogram | Summary | Untyped

  datatype Header = Header(metricName: string, kind: MetricKind)

  /** The word that names a kind in a TYPE line. */
  function Keyword(k: MetricKind): string {
    match k
    case Counter => "counter"
    case Gauge => "gauge"
    case Histogram => "histogram"
    case Summary => "summary"
    case Untyped => "untyped"
  }

  /** nom's `alt` over the five `tag`s, first match wins. */
  function MatchKind(t: string): (r: Scan<MetricKind>)
    ensures r.Match? ==> StartsWith(t, Keyword(r.value)) && r.rest == t[|Keyword(r.value)|..]
    ensures r.NoMatch? <==> forall k: MetricKind :: !StartsWith(t, Keyword(k))
  {
    if StartsWith(t, "counter") then Match(Counter, t[7..])
    else if StartsWith(t, "gauge") then Match(Gauge, t[5..])
    else if StartsWith(t, "summary") then Match(Summary, t[7..])
    else if StartsWith(t, "histogram") then Match(Histogram, t[9..])
    else if StartsWith(t, "untyped") then Match(Untyped, t[7..])
    else NoMatch
  }

  function ParseHeader(input: string): (r: IResult<Header>)
    ensures r.Ok? ==> ValidName(r.value.metricName)
    ensures r.Err? ==> r.error.ExpectedToken? || r.error.ParseNameError? || r.error.InvalidMetricKind?
  {
    var t := TrimSpace(input);
    if !StartsWith(t, "#") then
      Err(ExpectedToken("#", t))
    else
      var t2 := TrimSpace(t[1..]);
      if !StartsWith(t2, "TYPE") then
        Err(ExpectedToken("TYPE", t2))
      else
        var n := ParseName(t2[4..]);
        if n.Err? then
          Err(n.error)
        else
          KindAfterName(n.value, n.rest)
  }

  /** The last step of `Header::parse`: blanks, then the kind keyword. */
  function KindAfterName(name: string, rest: string): (r: IResult<Header>)
    requires ValidName(name)
    ensures r.Ok? ==> r.value.metricName == name
    ensures r.Err? ==> r.error == InvalidMetricKind(TrimSpace(rest))
  {
    var t := TrimSpace(rest);
    var k := MatchKind(t);
    if k.NoMatch? then Err(InvalidMetricKind(t)) else Ok(k.rest, Header(name, k.value))
  }
}

/** Properties of `Header::parse`. */
module HeadersTheory {
  import opened Text
  import opened Parsing
  import opened Names
  import opened Headers

  /** No keyword is a prefix of another, so a keyword followed by anything is read as its own kind, leaving what follows. */
  lemma MatchKeyword(k: MetricKind, tail: string)
    ensures MatchKind(Keyword(k) + tail) == Match(k, tail)
  {
    var t := Keyword(k) + tail;
    StartsWithConcat(Keyword(k), tail);
    assert t[0] == Keyword(k)[0];
    match k
    case Counter =>
    case Gauge =>
      assert !StartsWith(t, "counter");
    case Summary =>
      assert !StartsWith(t, "counter") && !StartsWith(t, "gauge");
    case Histogram =>
      assert !StartsWith(t, "counter") && !StartsWith(t, "gauge") && !StartsWith(t, "summary");
    case Untyped =>
      assert t[1] == 'n';
      assert !StartsWith(t, "counter") && !StartsWith(t, "gauge") && !StartsWith(t, "summary") && !StartsWith(t, "histogram");
  }

  /** The steps of `Header::parse` once `#`, `TYPE` and the name have been read. */
  lemma HeaderSteps(input: string, afterHash: string, afterType: string, afterName: string, name: string)
    requires TrimSpace(input) == "#" + afterHash
    requires TrimSpace(afterHash) == "TYPE" + afterType
    requires ParseName(afterType) == Ok(afterName, name)
    ensures ParseHeader(input) == KindAfterName(name, afterName)
  {
    StartsWithConcat("#", afterHash);
    StartsWithConcat("TYPE", afterType);
  }

  /** The text of a TYPE line with the blanks the grammar allows; blanks between name and kind are required, since the kind would otherwise continue the name. */
  function HeaderText(h: Header, afterHash: string, afterType: string, afterName: string): string {
    "#" + afterHash + "TYPE" + afterType + h.metricName + afterName + Keyword(h.kind)
  }

  lemma HeaderTextParts(h: Header, g1: string, g2: string, g3: string, tail: string)
    ensures HeaderText(h, g1, g2, g3) + tail == "#" + (g1 + ("TYPE" + (g2 + h.metricName + (g3 + (Keyword(h.kind) + tail)))))
  {
  }

  lemma HeaderTextOf(t: string, afterHash: string, afterType: string, named: string, afterName: string, keyworded: string,
                     g1: string, g2: string, g3: string, h: Header, rest: string)
    requires t == "#" + afterHash && afterHash == g1 + ("TYPE" + afterType)
    requires afterType == g2 + named && named == h.metricName + afterName
    requires afterName == g3 + keyworded && keyworded == Keyword(h.kind) + rest
    ensures t == HeaderText(h, g1, g2, g3) + rest
  {
    HeaderTextParts(h, g1, g2, g3, rest);
  }

  /** Soundness of `Header::parse`: on success the blank-trimmed input is a TYPE line for the header read, with blanks only between its words, followed by the remainder. */
  lemma ParseHeaderSound(input: string)
    ensures var r := ParseHeader(input);
      r.Ok? ==> exists g1, g2, g3 | All(g1, Blank) && All(g2, Blank) && All(g3, Blank) ::
        TrimSpace(input) == HeaderText(r.value, g1, g2, g3) + r.rest
  {
    var r := ParseHeader(input);
    if r.Ok? {
      var t := TrimSpace(input);
      var a := t[1..];
      var t2 := TrimSpace(a);
      var b := t2[4..];
      var n := ParseName(b);
      assert r == KindAfterName(n.value, n.rest);
      var t3 := TrimSpace(n.rest);
      var k := MatchKind(t3);
      assert r.value == Header(n.value, k.value) && r.rest == k.rest;
      StartsWithSplit(t, "#");
      StartsWithSplit(t2, "TYPE");
      StartsWithSplit(t3, Keyword(k.value));
      LeadingSplit(a);
      LeadingSplit(b);
      LeadingSplit(n.rest);
      HeaderTextOf(t, a, b, TrimSpace(b), n.rest, t3, Leading(a), Leading(b), Leading(n.rest), r.value, r.rest);
    }
  }

  /** Blanks and then a kind keyword complete the header, leaving what follows the keyword. */
  lemma KindAfterNameOf(name: string, gap: string, k: MetricKind, tail: string)
    requires ValidName(name)
    requires All(gap, Blank)
    ensures KindAfterName(name, gap + (Keyword(k) + tail)) == Ok(tail, Header(name, k))
  {
    assert (Keyword(k) + tail)[0] == Keyword(k)[0];
    TrimSpaceOf(gap, Keyword(k) + tail);
    MatchKeyword(k, tail);
  }

  /** Round trip: any header written with any blanks reads back as itself, leaving exactly what follows the kind keyword. */
  lemma ParseHeaderRoundTrip(blanks: string, h: Header, g1: string, g2: string, g3: string, tail: string)
    requires All(blanks, Blank) && All(g1, Blank) && All(g2, Blank) && All(g3, Blank)
    requires |g3| > 0
    requires ValidName(h.metricName)
    ensures ParseHeader(blanks + HeaderText(h, g1, g2, g3) + tail) == Ok(tail, h)
  {
    var input := blanks + HeaderText(h, g1, g2, g3) + tail;
    var afterName := g3 + (Keyword(h.kind) + tail);
    var afterType := g2 + h.metricName + afterName;
    var afterHash := g1 + ("TYPE" + afterType);
    assert input == blanks + ("#" + afterHash) by {
      HeaderTextParts(h, g1, g2, g3, tail);
    }
    assert TrimSpace(input) == "#" + afterHash by {
      TrimSpaceOf(blanks, "#" + afterHash);
    }
    assert TrimSpace(afterHash) == "TYPE" + afterType by {
      TrimSpaceOf(g1, "TYPE" + afterType);
    }
    assert ParseName(afterType) == Ok(afterName, h.metricName) by {
      assert afterName[0] == g3[0];
      ParseNameRoundTrip(g2, h.metricName, afterName);
    }
    HeaderSteps(input, afterHash, afterType, afterName, h.metricName);
    KindAfterNameOf(h.metricName, g3, h.kind, tail);
  }

  /** A line that does not start with `#` after its blanks is not a header. */
  lemma ParseHeaderNoHash(blanks: string, s: string)
    requires All(blanks, Blank)
    requires s == [] || (!IsBlank(s[0]) && s[0] != '#')
    ensures ParseHeader(blanks + s) == Err(ExpectedToken("#", s))
  {
    TrimSpaceOf(blanks, s);
  }

  /** A comment whose first word is not `TYPE`, such as a HELP line, is not a header. */
  lemma ParseHeaderNoType(blanks: string, g1: string, s: string)
    requires All(blanks, Blank) && All(g1, Blank)
    requires s == [] || !IsBlank(s[0])
    requires !StartsWith(s, "TYPE")
    ensures ParseHeader(blanks + "#" + g1 + s) == Err(ExpectedToken("TYPE", s))
  {
    assert blanks + "#" + g1 + s == blanks + ("#" + (g1 + s));
    TrimSpaceOf(blanks, "#" + (g1 + s));
    StartsWithConcat("#", g1 + s);
    TrimSpaceOf(g1, s);
  }

  /** After `TYPE`, text that does not start with a name is reported by the name rule. */
  lemma ParseHeaderBadName(blanks: string, g1: string, g2: string, s: string)
    requires All(blanks, Blank) && All(g1, Blank) && All(g2, Blank)
    requires s == [] || (!IsBlank(s[0]) && !IsNameStart(s[0]))
    ensures ParseHeader(blanks + "#" + g1 + "TYPE" + g2 + s) == Err(ParseNameError(s))
  {
    var afterType := g2 + s;
    var afterHash := g1 + ("TYPE" + afterType);
    assert blanks + "#" + g1 + "TYPE" + g2 + s == blanks + ("#" + afterHash);
    TrimSpaceOf(blanks, "#" + afterHash);
    TrimSpaceOf(g1, "TYPE" + afterType);
    StartsWithConcat("#", afterHash);
    StartsWithConcat("TYPE", afterType);
    TrimSpaceOf(g2, s);
  }

  /** A kind that is none of the five keywords is reported with the text where the kind should start. */
  lemma ParseHeaderInvalidKind(blanks: string, g1: string, g2: string, name: string, g3: string, s: string)
    requires All(blanks, Blank) && All(g1, Blank) && All(g2, Blank) && All(g3, Blank)
    requires ValidName(name)
    requires |g3| > 0
    requires s == [] || !IsBlank(s[0])
    requires forall k: MetricKind :: !StartsWith(s, Keyword(k))
    ensures ParseHeader(blanks + "#" + g1 + "TYPE" + g2 + name + g3 + s) == Err(InvalidMetricKind(s))
  {
    var lead := blanks + "#" + g1 + "TYPE" + g2 + name;
    Associate3(lead, g3, s);
    assert (g3 + s)[0] == g3[0];
    HeaderUpToName(blanks, g1, g2, name, g3 + s);
    InvalidKindAfter(name, g3, s);
  }

  lemma InvalidKindAfter(name: string, gap: string, s: string)
    requires ValidName(name)
    requires All(gap, Blank)
    requires s == [] || !IsBlank(s[0])
    requires forall k: MetricKind :: !StartsWith(s, Keyword(k))
    ensures KindAfterName(name, gap + s) == Err(InvalidMetricKind(s))
  {
    TrimSpaceOf(gap, s);
  }

  /** Once `#`, `TYPE` and a name have been read, what remains is the kind step. */
  lemma HeaderUpToName(blanks: string, g1: string, g2: string, name: string, afterName: string)
    requires All(blanks, Blank) && All(g1, Blank) && All(g2, Blank)
    requires ValidName(name)
    requires afterName == [] || !IsNameChar(afterName[0])
    ensures ParseHeader(blanks + "#" + g1 + "TYPE" + g2 + name + afterName) == KindAfterName(name, afterName)
  {
    var afterType := g2 + name + afterName;
    var afterHash := g1 + ("TYPE" + afterType);
    HeaderRegroup(blanks, g1, g2, name, afterName);
    TrimSpaceOf(blanks, "#" + afterHash);
    TrimSpaceOf(g1, "TYPE" + afterType);
    ParseNameRoundTrip(g2, name, afterName);
    HeaderSteps(blanks + "#" + g1 + "TYPE" + g2 + name + afterName, afterHash, afterType, afterName, name);
  }

  lemma HeaderRegroup(blanks: string, g1: string, g2: string, name: string, afterName: string)
    ensures blanks + "#" + g1 + "TYPE" + g2 + name + afterName == blanks + ("#" + (g1 + ("TYPE" + (g2 + name + afterName))))
  {
    var afterType := g2 + name + afterName;
    Associate(blanks + "#" + g1 + "TYPE", g2, name, afterName);
    Associate(blanks, "#", g1, "TYPE" + afterType);
  }

  /** Whatever `Header::parse` leaves is a suffix of its input. */
  lemma ParseHeaderSuffix(input: string)
    ensures ParseHeader(input).Ok? ==> IsSuffix(ParseHeader(input).rest, input)
  {
    if ParseHeader(input).Ok? {
      var t := TrimSpace(input);
      var t2 := TrimSpace(t[1..]);
      var n := ParseName(t2[4..]);
      assert ParseHeader(input) == KindAfterName(n.value, n.rest);
      assert IsSuffix(n.rest, input) by {
        assert IsSuffix(t2[4..], t2);
        SuffixTransitive(n.rest, t2[4..], t2);
        SuffixTransitive(n.rest, t2, t[1..]);
        assert IsSuffix(t[1..], t);
        SuffixTransitive(n.rest, t[1..], t);
        SuffixTransitive(n.rest, t, input);
      }
      KindAfterNameSuffix(n.value, n.rest);
      SuffixTransitive(ParseHeader(input).rest, n.rest, input);
    }
  }

  /** The keyword step consumes a prefix of what follows the name. */
  lemma KindAfterNameSuffix(name: string, rest: string)
    requires ValidName(name)
    ensures KindAfterName(name, rest).Ok? ==> IsSuffix(KindAfterName(name, rest).rest, rest)
  {
    var r := KindAfterName(name, rest);
    if r.Ok? {
      var t := TrimSpace(rest);
      var k := MatchKind(t);
      assert t == Keyword(k.value) + r.rest by {
        StartsWithSplit(t, Keyword(k.value));
      }
      SuffixOfConcat(Keyword(k.value), r.rest);
      SuffixTransitive(r.rest, t, rest);
    }
  }
}

/** The cases of the header test, each wrapped in blanks and followed by `  .`. */
module HeadersExamples {
  import opened Text
  import opened Parsing
  import opened Names
  import opened Headers
  import opened HeadersTheory

  lemma AbcDefIsName()
    ensures ValidName("abc_def")
  {
  }

  lemma CounterText()
    ensures "  \t #  TYPE abc_def counter  ." == "  \t " + HeaderText(Header("abc_def", Counter), "  ", " ", " ") + "  ."
  {
  }

  lemma ExampleCounter()
    ensures ParseHeader("  \t #  TYPE abc_def counter  .") == Ok("  .", Header("abc_def", Counter))
  {
    CounterText();
    AbcDefIsName();
    ParseHeaderRoundTrip("  \t ", Header("abc_def", Counter), "  ", " ", " ", "  .");
  }

  lemma GaugeText()
    ensures "  \t #TYPE \t abc_def \t gauge  ." == "  \t " + HeaderText(Header("abc_def", Gauge), "", " \t ", " \t ") + "  ."
  {
  }

  lemma ExampleGauge()
    ensures ParseHeader("  \t #TYPE \t abc_def \t gauge  .") == Ok("  .", Header("abc_def", Gauge))
  {
    GaugeText();
    AbcDefIsName();
    ParseHeaderRoundTrip("  \t ", Header("abc_def", Gauge), "", " \t ", " \t ", "  .");
  }

  lemma HistogramText()
    ensures "  \t # TYPE abc_def histogram  ." == "  \t " + HeaderText(Header("abc_def", Histogram), " ", " ", " ") + "  ."
  {
  }

  lemma ExampleHistogram()
    ensures ParseHeader("  \t # TYPE abc_def histogram  .") == Ok("  .", Header("abc_def", Histogram))
  {
    HistogramText();
    AbcDefIsName();
    ParseHeaderRoundTrip("  \t ", Header("abc_def", Histogram), " ", " ", " ", "  .");
  }

  lemma SummaryText()
    ensures "  \t # TYPE abc_def summary  ." == "  \t " + HeaderText(Header("abc_def", Summary), " ", " ", " ") + "  ."
  {
  }

  lemma ExampleSummary()
    ensures ParseHeader("  \t # TYPE abc_def summary  .") == Ok("  .", Header("abc_def", Summary))
  {
    SummaryText();
    AbcDefIsName();
    ParseHeaderRoundTrip("  \t ", Header("abc_def", Summary), " ", " ", " ", "  .");
  }

  lemma UntypedText()
    ensures "  \t # TYPE abc_def untyped  ." == "  \t " + HeaderText(Header("abc_def", Untyped), " ", " ", " ") + "  ."
  {
  }

  lemma ExampleUntyped()
    ensures ParseHeader("  \t # TYPE abc_def untyped  .") == Ok("  .", Header("abc_def", Untyped))
  {
    UntypedText();
    AbcDefIsName();
    ParseHeaderRoundTrip("  \t ", Header("abc_def", Untyped), " ", " ", " ", "  .");
  }

  /** Kind keywords are matched as prefixes: `counterfoo` reads as a counter and leaves `foo`. */
  lemma ExampleKeywordPrefix()
    ensures ParseHeader("# TYPE x counterfoo") == Ok("foo", Header("x", Counter))
  {
    assert "# TYPE x counterfoo" == [] + HeaderText(Header("x", Counter), " ", " ", " ") + "foo";
    assert ValidName("x");
    ParseHeaderRoundTrip([], Header("x", Counter), " ", " ", " ", "foo");
  }

  /** A HELP comment is not a header. */
  lemma ExampleHelp()
    ensures ParseHeader("# HELP x y") == Err(ExpectedToken("TYPE", "HELP x y"))
  {
    assert "# HELP x y" == [] + "#" + " " + "HELP x y";
    ParseHeaderNoType([], " ", "HELP x y");
  }
}

=== FILE: labels.dfy ===
/**
 The label set of a sample, `{name="value",...}`: `parse_name_value`,
 `parse_labels_inner` (nom's `separated_list` followed by an optional comma)
 and `parse_labels`. Pairs are collected into a map in order, so a repeated
 label name keeps the last value.
 */
module Labels {
  import opened Text
  import opened Parsing
  import opened Names
  import opened EscapedStrings

  /** One `name="value"` pair, value already unescaped. */
  datatype Label = Label(name: string, value: string)

  /** The pairs read by the list rule and the input after the last one. */
  datatype Listed = Listed(labels: seq<Label>, rest: string)

  /** `parse_name_value`: a name, optional blanks and `=`, then a quoted value. */
  function ParseNameValue(input: string): (r: IResult<Label>)
    ensures r.Ok? ==> ValidName(r.value.name) && |r.rest| < |input|
  {
    var n := ParseName(input);
    if n.Err? then
      Err(n.error)
    else
      var s := Sp(n.rest).0;
      if |s| == 0 || s[0] != '=' then
        Err(Nom(s))
      else
        var v := ParseEscapedString(s[1..]);
        if v.Err? then Err(v.error) else Ok(v.rest, Label(n.value, v.value))
  }

  /** nom's `separated_list` with separator `sp ","`: a first pair, then as many `, pair` as parse. A separator or pair that fails is not consumed and ends the list; the rule itself never fails. */
  function PairList(input: string): (r: Listed)
    ensures forall i :: 0 <= i < |r.labels| ==> ValidName(r.labels[i].name)
  {
    var first := ParseNameValue(input);
    if first.Err? then
      Listed([], input)
    else
      var more := MorePairs(first.rest);
      NamesStayValid(first.value, more.labels);
      Listed([first.value] + more.labels, more.rest)
  }

  lemma NamesStayValid(l: Label, ls: seq<Label>)
    requires ValidName(l.name)
    requires forall i :: 0 <= i < |ls| ==> ValidName(ls[i].name)
    ensures forall i :: 0 <= i < |[l] + ls| ==> ValidName(([l] + ls)[i].name)
  {
    forall i | 0 <= i < |[l] + ls|
      ensures ValidName(([l] + ls)[i].name)
    {
      if i > 0 {
        assert ([l] + ls)[i] == ls[i - 1];
      }
    }
  }

  /** The repeated part of `separated_list`: each round reads a separator and a pair, or stops where the round began. */
  function MorePairs(input: string): (r: Listed)
    ensures forall i :: 0 <= i < |r.labels| ==> ValidName(r.labels[i].name)
    decreases |input|
  {
    var s := Sp(input).0;
    if |s| == 0 || s[0] != ',' then
      Listed([], input)
    else
      var next := ParseNameValue(s[1..]);
      if next.Err? then
        Listed([], input)
      else
        var more := MorePairs(next.rest);
        NamesStayValid(next.value, more.labels);
        Listed([next.value] + more.labels, more.rest)
  }

  /** The names that occur in a list of pairs. */
  function NamesOf(ps: seq<Label>): set<string> {
    set i | 0 <= i < |ps| :: ps[i].name
  }

  /** Collecting pairs into a `BTreeMap`: insert them in order, so a later pair with the same name replaces an earlier one. */
  function Collect(ps: seq<Label>): (m: map<string, string>)
    ensures m.Keys == NamesOf(ps)
  {
    if |ps| == 0 then
      map[]
    else
      var last := ps[|ps| - 1];
      var m := Collect(ps[..|ps| - 1]);
      assert NamesOf(ps) == NamesOf(ps[..|ps| - 1]) + {last.name} by {
        assert forall i | 0 <= i < |ps| - 1 :: ps[..|ps| - 1][i] == ps[i];
      }
      m[last.name := last.value]
  }

  /** `parse_labels_inner`: the pair list, then an optional `sp ","`. It never fails. */
  function ParseLabelsInner(input: string): (r: IResult<map<string, string>>)
    ensures r.Ok?
    ensures forall k | k in r.value :: ValidName(k)
  {
    var l := PairList(input);
    Ok(OptComma(l.rest), Collect(l.labels))
  }

  /** `opt(preceded(sp, char(',')))`: skip blanks and a comma if there is one; otherwise consume nothing, blanks included. */
  function OptComma(input: string): string {
    var s := Sp(input).0;
    if |s| > 0 && s[0] == ',' then s[1..] else input
  }

  /** `parse_labels`: nothing but blanks to skip when there is no `{`; otherwise the pairs and a closing `}`, whose absence is the one error this rule reports. */
  function ParseLabels(input: string): (r: IResult<map<string, string>>)
    ensures r.Err? ==> r.error.ExpectedToken? && r.error.expected == "}"
    ensures r.Ok? ==> forall k | k in r.value :: ValidName(k)
  {
    var t := TrimSpace(input);
    if |t| == 0 || t[0] != '{' then
      Ok(t, map[])
    else
      var inner := ParseLabelsInner(t[1..]);
      var s := Sp(inner.rest).0;
      if |s| > 0 && s[0] == '}' then
        Ok(s[1..], inner.value)
      else
        Err(ExpectedToken("}", inner.rest))
  }
}

/** How label sets are written, and the properties of `parse_labels` over them. */
module LabelsTheory {
  import opened Text
  import opened Parsing
  import opened Names
  import opened EscapedStrings
  import opened Labels

  /** One pair as the list rule reads it: the name, blanks, `=`, blanks and the quoted body exactly as written. */
  function PairText(name: string, beforeEq: string, beforeValue: string, body: string): string {
    name + beforeEq + "=" + beforeValue + "\"" + body + "\""
  }

  lemma PairTextOf(t: string, name: string, afterName: string, beforeEq: string, s: string, a: string, beforeValue: string, u: string, body: string, rest: string)
    requires t == name + afterName && afterName == beforeEq + s && s == "=" + a
    requires a == beforeValue + u && u == "\"" + body + "\"" + rest
    ensures t == PairText(name, beforeEq, beforeValue, body) + rest
  {
  }

  /** The body between the quotes, given what follows the closing quote. */
  function QuotedBody(a: string, rest: string): string
    requires |rest| + 2 <= |TrimSpace(a)|
  {
    TrimSpace(a)[1..|TrimSpace(a)| - |rest| - 1]
  }

  lemma QuotedParts(a: string)
    requires ParseEscapedString(a).Ok?
    ensures var v := ParseEscapedString(a);
      && |v.rest| + 2 <= |TrimSpace(a)|
      && All(Leading(a), Blank)
      && Decode(QuotedBody(a, v.rest)) == Some(v.value)
      && a == Leading(a) + ("\"" + QuotedBody(a, v.rest) + "\"" + v.rest)
  {
    ParseEscapedStringSound(a);
    LeadingSplit(a);
  }

  lemma QuotedValueSound(t: string, name: string, afterName: string, beforeEq: string, s: string, a: string, v: IResult<string>)
    requires t == name + afterName && afterName == beforeEq + s && All(beforeEq, Blank)
    requires |s| > 0 && s[0] == '=' && a == s[1..] && v == ParseEscapedString(a) && v.Ok?
    ensures exists beforeValue, body | All(beforeEq, Blank) && All(beforeValue, Blank) ::
      && Decode(body) == Some(v.value)
      && t == PairText(name, beforeEq, beforeValue, body) + v.rest
  {
    assert s == "=" + a;
    QuotedParts(a);
    var body := QuotedBody(a, v.rest);
    PairTextOf(t, name, afterName, beforeEq, s, a, Leading(a), "\"" + body + "\"" + v.rest, body, v.rest);
  }

  /** Soundness of `parse_name_value`: on success the blank-trimmed input is the pair's name, blanks, `=`, blanks and a quoted body that the reference decoder maps to the pair's value, followed by the remainder. */
  lemma ParseNameValueSound(input: string)
    ensures var r := ParseNameValue(input);
      r.Ok? ==> exists beforeEq, beforeValue, body | All(beforeEq, Blank) && All(beforeValue, Blank) ::
        && Decode(body) == Some(r.value.value)
        && TrimSpace(input) == PairText(r.value.name, beforeEq, beforeValue, body) + r.rest
  {
    var r := ParseNameValue(input);
    if r.Ok? {
      var n := ParseName(input);
      var s := Sp(n.rest).0;
      var a := s[1..];
      var v := ParseEscapedString(a);
      assert r == Ok(v.rest, Label(n.value, v.value));
      QuotedValueSound(TrimSpace(input), n.value, n.rest, Sp(n.rest).1, s, a, v);
    }
  }

  /** One pair as written, with the blanks the grammar allows around its parts. */
  datatype Entry = Entry(pair: Label, beforeName: string, beforeEq: string, beforeValue: string, afterValue: string)

  predicate WellWritten(e: Entry) {
    && ValidName(e.pair.name)
    && All(e.beforeName, Blank)
    && All(e.beforeEq, Blank)
    && All(e.beforeValue, Blank)
    && All(e.afterValue, Blank)
  }

  predicate AllWellWritten(es: seq<Entry>) {
    forall i :: 0 <= i < |es| ==> WellWritten(es[i])
  }

  /** The text of one pair: name, `=`, the escaped value in quotes, with its blanks. */
  function EntryText(e: Entry): string {
    e.beforeName + e.pair.name + e.beforeEq + "=" + e.beforeValue + "\"" + Escape(e.pair.value) + "\"" + e.afterValue
  }

  /** Pairs joined by commas. */
  function ListText(es: seq<Entry>): string {
    if |es| == 0 then []
    else if |es| == 1 then EntryText(es[0])
    else EntryText(es[0]) + "," + ListText(es[1..])
  }

  function LabelsOf(es: seq<Entry>): seq<Label> {
    if |es| == 0 then [] else [es[0].pair] + LabelsOf(es[1..])
  }

  /** The text after the pairs: an optional trailing comma, blanks and the closing brace. */
  function CloseText(comma: bool, gap: string): string {
    (if comma then "," else "") + gap + "}"
  }

  /** Input at which the repeated part of the pair list stops: no comma next, or a comma not followed by a pair. */
  predicate EndsList(r: string) {
    var s := Sp(r).0;
    !(|s| > 0 && s[0] == ',') || ParseNameValue(s[1..]).Err?
  }

  /** The three steps of `parse_name_value` in order. */
  lemma ParseNameValueSteps(input: string, afterName: string, name: string, afterEq: string, r: IResult<string>)
    requires ParseName(input) == Ok(afterName, name)
    requires Sp(afterName).0 == "=" + afterEq
    requires r == ParseEscapedString(afterEq) && r.Ok?
    ensures ParseNameValue(input) == Ok(r.rest, Label(name, r.value))
  {
    assert ("=" + afterEq)[1..] == afterEq;
  }

  /** The text of a pair after its name. */
  function AfterName(e: Entry, r: string): string {
    e.beforeEq + ("=" + AfterEq(e, r))
  }

  /** The text of a pair after its `=`. */
  function AfterEq(e: Entry, r: string): string {
    e.beforeValue + "\"" + Escape(e.pair.value) + "\"" + (e.afterValue + r)
  }

  lemma NameStage(e: Entry, r: string)
    requires WellWritten(e)
    ensures ParseName(EntryText(e) + r) == Ok(AfterName(e, r), e.pair.name)
  {
    var afterName := AfterName(e, r);
    assert EntryText(e) + r == e.beforeName + e.pair.name + afterName;
    assert afterName == [] || !IsNameChar(afterName[0]) by {
      if |e.beforeEq| > 0 {
        assert afterName[0] == e.beforeEq[0];
      } else {
        assert afterName[0] == '=';
      }
    }
    ParseNameRoundTrip(e.beforeName, e.pair.name, afterName);
  }

  lemma ValueStage(e: Entry, r: string)
    requires WellWritten(e)
    ensures Sp(AfterName(e, r)).0 == "=" + AfterEq(e, r)
    ensures ParseEscapedString(AfterEq(e, r)) == Ok(e.afterValue + r, e.pair.value)
  {
    SpOf(e.beforeEq, "=" + AfterEq(e, r));
    ParseEscapedStringRoundTrip(e.beforeValue, e.pair.value, e.afterValue + r);
  }

  /** A written pair reads back as its label and leaves the blanks after its closing quote. */
  lemma ParseNameValueRoundTrip(e: Entry, r: string)
    requires WellWritten(e)
    ensures ParseNameValue(EntryText(e) + r) == Ok(e.afterValue + r, e.pair)
  {
    NameStage(e, r);
    ValueStage(e, r);
    ParseNameValueSteps(EntryText(e) + r, AfterName(e, r), e.pair.name, AfterEq(e, r), ParseEscapedString(AfterEq(e, r)));
  }

  /** After the last pair, blanks and a stopping point end the list where the blanks begin. */
  lemma MorePairsStop(b: string, r: string)
    requires All(b, Blank)
    requires EndsList(r)
    ensures MorePairs(b + r) == Listed([], b + r)
  {
    SpSkipsBlanks(b, r);
  }

  /** What follows the first pair of a list: nothing more of the list, or a comma and the other pairs. */
  function AfterFirst(es: seq<Entry>, r: string): string
    requires |es| > 0
  {
    if |es| == 1 then r else "," + ListText(es[1..]) + r
  }

  lemma ListTextFirst(es: seq<Entry>, r: string)
    requires |es| > 0
    ensures ListText(es) + r == EntryText(es[0]) + AfterFirst(es, r)
  {
    if |es| > 1 {
      Associate(EntryText(es[0]), ",", ListText(es[1..]), r);
      Associate3(",", ListText(es[1..]), r);
    }
  }

  lemma AllWellWrittenTail(es: seq<Entry>)
    requires |es| > 0 && AllWellWritten(es)
    ensures WellWritten(es[0]) && AllWellWritten(es[1..])
  {
    assert forall i | 0 <= i < |es| - 1 :: es[1..][i] == es[i + 1];
  }

  /** One round of the repeated part of the pair list, when both the separator and the pair parse. */
  lemma MorePairsSteps(input: string, afterComma: string, l: Label, rest: string)
    requires Sp(input).0 == "," + afterComma
    requires ParseNameValue(afterComma) == Ok(rest, l)
    ensures MorePairs(input) == Listed([l] + MorePairs(rest).labels, MorePairs(rest).rest)
  {
    assert ("," + afterComma)[1..] == afterComma;
  }

  /** After the first pair, the rest of a written list is read in order up to the stopping point. */
  lemma ListTail(es: seq<Entry>, r: string)
    requires |es| > 0 && AllWellWritten(es)
    requires EndsList(r)
    ensures MorePairs(es[0].afterValue + AfterFirst(es, r)) == Listed(LabelsOf(es[1..]), es[|es| - 1].afterValue + r)
    decreases |es|, 0
  {
    AllWellWrittenTail(es);
    var b := es[0].afterValue;
    var rest := es[1..];
    if |es| == 1 {
      assert AfterFirst(es, r) == r;
      assert LabelsOf(rest) == [];
      MorePairsStop(b, r);
    } else {
      assert AfterFirst(es, r) == "," + ListText(rest) + r;
      assert rest[|rest| - 1] == es[|es| - 1];
      Associate(b, ",", ListText(rest), r);
      Associate3(",", ListText(rest), r);
      MorePairsRoundTrip(b, rest, r);
    }
  }

  /** Blanks, a comma and written pairs are read back in order, up to the stopping point. */
  lemma {:induction false} MorePairsRoundTrip(b: string, es: seq<Entry>, r: string)
    requires All(b, Blank)
    requires |es| > 0 && AllWellWritten(es)
    requires EndsList(r)
    ensures MorePairs(b + "," + ListText(es) + r) == Listed(LabelsOf(es), es[|es| - 1].afterValue + r)
    decreases |es|, 1
  {
    var x := AfterFirst(es, r);
    var first := EntryText(es[0]) + x;
    AllWellWrittenTail(es);
    assert Sp(b + "," + ListText(es) + r).0 == "," + first by {
      ListTextFirst(es, r);
      assert b + "," + ListText(es) + r == b + ("," + first);
      SpOf(b, "," + first);
    }
    ParseNameValueRoundTrip(es[0], x);
    MorePairsSteps(b + "," + ListText(es) + r, first, es[0].pair, es[0].afterValue + x);
    ListTail(es, r);
  }

  /** Written pairs, followed by a stopping point, are read back in order. */
  lemma PairListRoundTrip(es: seq<Entry>, r: string)
    requires |es| > 0 && AllWellWritten(es)
    requires EndsList(r)
    ensures PairList(ListText(es) + r) == Listed(LabelsOf(es), es[|es| - 1].afterValue + r)
  {
    var x := AfterFirst(es, r);
    ListTextFirst(es, r);
    AllWellWrittenTail(es);
    ParseNameValueRoundTrip(es[0], x);
    ListTail(es, r);
  }

  /** No pair starts at a character that cannot start a name, nor at the end of the input. */
  lemma NoPairAt(b: string, s: string)
    requires All(b, Blank)
    requires s == [] || (!IsBlank(s[0]) && !IsNameStart(s[0]))
    ensures ParseNameValue(b + s).Err?
  {
    TrimSpaceOf(b, s);
  }

  /** A trailing comma followed by the closing brace stops the pair list: the comma is not followed by a pair. */
  lemma CommaEndsList(gap: string, tail: string)
    requires All(gap, Blank)
    ensures EndsList("," + (gap + ("}" + tail)))
  {
    var r := "," + (gap + ("}" + tail));
    assert Sp(r).0 == r by {
      assert r == [] + r;
      SpOf([], r);
    }
    assert r[1..] == gap + ("}" + tail);
    NoPairAt(gap, "}" + tail);
  }

  /** The closing brace stops the pair list. */
  lemma BraceEndsList(gap: string, tail: string)
    requires All(gap, Blank)
    ensures EndsList(gap + ("}" + tail))
  {
    SpOf(gap, "}" + tail);
  }

  /** The closing text stops the pair list. */
  lemma CloseEndsList(comma: bool, gap: string, tail: string)
    requires All(gap, Blank)
    ensures EndsList(CloseText(comma, gap) + tail)
  {
    if comma {
      assert CloseText(comma, gap) + tail == "," + (gap + ("}" + tail));
      CommaEndsList(gap, tail);
    } else {
      assert CloseText(comma, gap) + tail == gap + ("}" + tail);
      BraceEndsList(gap, tail);
    }
  }

  /** The blanks the pair list leaves in front of the closing text. */
  function LastGap(es: seq<Entry>): string {
    if |es| == 0 then [] else es[|es| - 1].afterValue
  }

  /** With no pairs written, the list rule finds no first pair in the closing text. */
  lemma EmptyPairList(comma: bool, gap: string, tail: string)
    requires All(gap, Blank)
    ensures PairList(CloseText(comma, gap) + tail) == Listed([], CloseText(comma, gap) + tail)
  {
    if comma {
      assert CloseText(comma, gap) + tail == [] + ("," + (gap + "}" + tail));
      NoPairAt([], "," + (gap + "}" + tail));
    } else {
      assert CloseText(comma, gap) + tail == gap + ("}" + tail);
      NoPairAt(gap, "}" + tail);
    }
  }

  /** Any written list, possibly empty, followed by the closing text is read back in order. */
  lemma PairListOf(es: seq<Entry>, comma: bool, gap: string, tail: string)
    requires AllWellWritten(es)
    requires All(gap, Blank)
    ensures PairList(ListText(es) + (CloseText(comma, gap) + tail)) == Listed(LabelsOf(es), LastGap(es) + (CloseText(comma, gap) + tail))
  {
    var r := CloseText(comma, gap) + tail;
    if |es| == 0 {
      assert ListText(es) + r == r && LastGap(es) + r == r;
      EmptyPairList(comma, gap, tail);
    } else {
      CloseEndsList(comma, gap, tail);
      PairListRoundTrip(es, r);
    }
  }

  /** Blanks in front of the closing text, with or without the trailing comma, leave `sp "}"` to match. */
  lemma InnerRest(a: string, comma: bool, gap: string, tail: string)
    requires All(a, Blank) && All(gap, Blank)
    ensures Sp(OptComma(a + (CloseText(comma, gap) + tail))).0 == "}" + tail
  {
    if comma {
      assert CloseText(comma, gap) + tail == "," + (gap + ("}" + tail));
      CommaAfterBlanks(a, gap, tail);
    } else {
      assert CloseText(comma, gap) + tail == gap + ("}" + tail);
      BraceAfterBlanks(a, gap, tail);
    }
  }

  lemma CommaAfterBlanks(a: string, gap: string, tail: string)
    requires All(a, Blank) && All(gap, Blank)
    ensures Sp(OptComma(a + ("," + (gap + ("}" + tail))))).0 == "}" + tail
  {
    var r := "," + (gap + ("}" + tail));
    SpOf(a, r);
    assert r[1..] == gap + ("}" + tail);
    SpOf(gap, "}" + tail);
  }

  lemma BraceAfterBlanks(a: string, gap: string, tail: string)
    requires All(a, Blank) && All(gap, Blank)
    ensures Sp(OptComma(a + (gap + ("}" + tail)))).0 == "}" + tail
  {
    assert a + (gap + ("}" + tail)) == (a + gap) + ("}" + tail);
    assert All(a + gap, Blank);
    SpOf(a + gap, "}" + tail);
  }

  /** The steps of `parse_labels` when a brace opens the set. */
  lemma ParseLabelsSteps(input: string, afterBrace: string, tail: string)
    requires TrimSpace(input) == "{" + afterBrace
    requires Sp(ParseLabelsInner(afterBrace).rest).0 == "}" + tail
    ensures ParseLabels(input) == Ok(tail, ParseLabelsInner(afterBrace).value)
  {
    assert ("{" + afterBrace)[1..] == afterBrace;
    assert ("}" + tail)[1..] == tail;
  }

  /** Round trip: a written label set, with any blanks the grammar allows and an optional trailing comma, reads back as the map of its pairs, leaving exactly what follows the closing brace. */
  lemma ParseLabelsRoundTrip(blanks: string, es: seq<Entry>, comma: bool, gap: string, tail: string)
    requires All(blanks, Blank) && All(gap, Blank)
    requires AllWellWritten(es)
    ensures ParseLabels(blanks + "{" + ListText(es) + CloseText(comma, gap) + tail) == Ok(tail, Collect(LabelsOf(es)))
  {
    var afterBrace := ListText(es) + (CloseText(comma, gap) + tail);
    SetParts(blanks, ListText(es), CloseText(comma, gap), tail);
    OpenBrace(blanks, afterBrace);
    PairListOf(es, comma, gap, tail);
    LastGapBlank(es);
    InnerRest(LastGap(es), comma, gap, tail);
    InnerOf(afterBrace, LabelsOf(es), LastGap(es) + (CloseText(comma, gap) + tail));
    ParseLabelsSteps(blanks + "{" + ListText(es) + CloseText(comma, gap) + tail, afterBrace, tail);
  }

  lemma SetParts(blanks: string, list: string, close: string, tail: string)
    ensures blanks + "{" + list + close + tail == blanks + ("{" + (list + (close + tail)))
  {
  }

  lemma LastGapBlank(es: seq<Entry>)
    requires AllWellWritten(es)
    ensures All(LastGap(es), Blank)
  {
    if |es| > 0 {
      assert WellWritten(es[|es| - 1]);
    }
  }

  /** The inner rule is the list rule followed by the optional comma. */
  lemma InnerOf(x: string, ls: seq<Label>, r: string)
    requires PairList(x) == Listed(ls, r)
    ensures ParseLabelsInner(x) == Ok(OptComma(r), Collect(ls))
  {
  }

  /** Two written label sets holding the same pairs with distinct names, in any order, read as the same map. */
  lemma ParseLabelsOrderInsensitive(blanks: string, es: seq<Entry>, fs: seq<Entry>, comma: bool, gap: string, tail: string)
    requires All(blanks, Blank) && All(gap, Blank)
    requires AllWellWritten(es) && AllWellWritten(fs)
    requires multiset(LabelsOf(es)) == multiset(LabelsOf(fs))
    requires DistinctNames(LabelsOf(es)) && DistinctNames(LabelsOf(fs))
    ensures ParseLabels(blanks + "{" + ListText(es) + CloseText(comma, gap) + tail)
         == ParseLabels(blanks + "{" + ListText(fs) + CloseText(comma, gap) + tail)
  {
    ParseLabelsRoundTrip(blanks, es, comma, gap, tail);
    ParseLabelsRoundTrip(blanks, fs, comma, gap, tail);
    CollectOrderInsensitive(LabelsOf(es), LabelsOf(fs));
  }

  /** An empty set may have blanks before its optional comma, as in `{ ,}`: the map is empty and the tail is left. */
  lemma ParseLabelsEmptyRoundTrip(blanks: string, before: string, comma: bool, gap: string, tail: string)
    requires All(blanks, Blank) && All(before, Blank) && All(gap, Blank)
    ensures ParseLabels(blanks + "{" + before + CloseText(comma, gap) + tail) == Ok(tail, map[])
  {
    var afterBrace := before + (CloseText(comma, gap) + tail);
    SetParts(blanks, before, CloseText(comma, gap), tail);
    OpenBrace(blanks, afterBrace);
    EmptyListNoPair(before, comma, gap, tail);
    FirstPairStops(afterBrace);
    InnerRest(before, comma, gap, tail);
    InnerOf(afterBrace, [], afterBrace);
    ParseLabelsSteps(blanks + "{" + before + CloseText(comma, gap) + tail, afterBrace, tail);
  }

  /** Blanks and then the closing text hold no pair. */
  lemma EmptyListNoPair(before: string, comma: bool, gap: string, tail: string)
    requires All(before, Blank) && All(gap, Blank)
    ensures ParseNameValue(before + (CloseText(comma, gap) + tail)).Err?
  {
    if comma {
      assert CloseText(comma, gap) + tail == "," + (gap + "}" + tail);
      NoPairAt(before, "," + (gap + "}" + tail));
    } else {
      assert before + (CloseText(comma, gap) + tail) == (before + gap) + ("}" + tail);
      AllConcat(before, gap, Blank);
      NoPairAt(before + gap, "}" + tail);
    }
  }

  /** Without an opening brace there is no label set: the blanks are skipped, nothing else is consumed, and the map is empty. */
  lemma ParseLabelsWithoutBrace(blanks: string, s: string)
    requires All(blanks, Blank)
    requires s == [] || (!IsBlank(s[0]) && s[0] != '{')
    ensures ParseLabels(blanks + s) == Ok(s, map[])
  {
    TrimSpaceOf(blanks, s);
  }

  /** The steps of `parse_labels` when the closing brace is missing after the pair list. */
  lemma MissingBraceSteps(input: string, afterBrace: string, innerRest: string)
    requires TrimSpace(input) == "{" + afterBrace
    requires ParseLabelsInner(afterBrace).rest == innerRest
    requires var s := Sp(innerRest).0; !(|s| > 0 && s[0] == '}')
    ensures ParseLabels(input) == Err(ExpectedToken("}", innerRest))
  {
    assert ("{" + afterBrace)[1..] == afterBrace;
  }

  /** Blanks and an opening brace in front of any text. */
  lemma OpenBrace(blanks: string, x: string)
    requires All(blanks, Blank)
    ensures TrimSpace(blanks + ("{" + x)) == "{" + x
  {
    TrimSpaceOf(blanks, "{" + x);
  }

  /** The end of the input, or text that is neither blank, nor a comma, nor a closing brace. */
  predicate Stray(s: string) {
    s == [] || (!IsBlank(s[0]) && s[0] != ',' && s[0] != '}')
  }

  /** After written pairs and a stopping point, `parse_labels_inner` returns their map. */
  lemma InnerAfterList(es: seq<Entry>, r: string)
    requires |es| > 0 && AllWellWritten(es)
    requires EndsList(r)
    ensures ParseLabelsInner(ListText(es) + r) == Ok(OptComma(LastGap(es) + r), Collect(LabelsOf(es)))
  {
    PairListRoundTrip(es, r);
  }

  /** After written pairs, the end of the input or anything but a comma or the closing brace is an error reported as a missing `}` at the end of the last pair; a set cut off after its pairs and two pairs with no comma between them are cases of this. */
  lemma ParseLabelsUnseparated(blanks: string, es: seq<Entry>, b: string, s: string)
    requires All(blanks, Blank) && All(b, Blank)
    requires |es| > 0 && AllWellWritten(es)
    requires Stray(s)
    ensures ParseLabels(blanks + "{" + ListText(es) + b + s) == Err(ExpectedToken("}", LastGap(es) + (b + s)))
  {
    Associate5(blanks, "{", ListText(es), b, s);
    OpenBrace(blanks, ListText(es) + (b + s));
    UnseparatedInner(es, b, s);
    MissingBraceSteps(blanks + "{" + ListText(es) + b + s, ListText(es) + (b + s), LastGap(es) + (b + s));
  }

  lemma UnseparatedInner(es: seq<Entry>, b: string, s: string)
    requires All(b, Blank)
    requires |es| > 0 && AllWellWritten(es)
    requires Stray(s)
    ensures ParseLabelsInner(ListText(es) + (b + s)).rest == LastGap(es) + (b + s)
    ensures Sp(LastGap(es) + (b + s)).0 == s
  {
    SpOf(b, s);
    InnerAfterList(es, b + s);
    assert WellWritten(es[|es| - 1]);
    SpSkipsBlanks(LastGap(es), b + s);
  }

  /** A comma that is not followed by a pair, and not by the closing brace either, is an error; `,,` and a set cut off after a comma are cases of this. */
  lemma ParseLabelsDanglingComma(blanks: string, es: seq<Entry>, b: string, s: string)
    requires All(blanks, Blank) && All(b, Blank)
    requires |es| > 0 && AllWellWritten(es)
    requires s == [] || (!IsBlank(s[0]) && !IsNameStart(s[0]) && s[0] != '}')
    ensures ParseLabels(blanks + "{" + ListText(es) + "," + b + s) == Err(ExpectedToken("}", b + s))
  {
    var r := "," + (b + s);
    assert blanks + "{" + ListText(es) + "," + b + s == blanks + ("{" + (ListText(es) + r)) by {
      Associate(blanks + "{" + ListText(es), ",", b, s);
      Associate(blanks, "{", ListText(es), r);
    }
    OpenBrace(blanks, ListText(es) + r);
    DanglingInner(es, b, s);
    MissingBraceSteps(blanks + "{" + ListText(es) + "," + b + s, ListText(es) + r, b + s);
  }

  lemma DanglingInner(es: seq<Entry>, b: string, s: string)
    requires All(b, Blank)
    requires |es| > 0 && AllWellWritten(es)
    requires s == [] || (!IsBlank(s[0]) && !IsNameStart(s[0]) && s[0] != '}')
    ensures ParseLabelsInner(ListText(es) + ("," + (b + s))).rest == b + s
    ensures Sp(b + s).0 == s
  {
    InnerBeforeComma(es, b, s);
    CommaAfterGap(es, b + s);
    SpOf(b, s);
  }

  lemma InnerBeforeComma(es: seq<Entry>, b: string, s: string)
    requires All(b, Blank)
    requires |es| > 0 && AllWellWritten(es)
    requires s == [] || (!IsBlank(s[0]) && !IsNameStart(s[0]) && s[0] != '}')
    ensures ParseLabelsInner(ListText(es) + ("," + (b + s))).rest == OptComma(LastGap(es) + ("," + (b + s)))
  {
    CommaThenNoPair(b, s);
    InnerAfterList(es, "," + (b + s));
  }

  /** The optional comma after the last pair's blanks is consumed. */
  lemma CommaAfterGap(es: seq<Entry>, x: string)
    requires |es| > 0 && AllWellWritten(es)
    ensures OptComma(LastGap(es) + ("," + x)) == x
  {
    var r := "," + x;
    assert WellWritten(es[|es| - 1]);
    SpOf(LastGap(es), r);
    assert r[1..] == x;
  }

  /** A comma followed by something that cannot start a pair ends the list before the comma. */
  lemma CommaThenNoPair(b: string, s: string)
    requires All(b, Blank)
    requires s == [] || (!IsBlank(s[0]) && !IsNameStart(s[0]) && s[0] != '}')
    ensures EndsList("," + (b + s))
  {
    var r := "," + (b + s);
    assert Sp(r).0 == r by {
      assert r == [] + r;
      SpOf([], r);
    }
    assert r[1..] == b + s;
    NoPairAt(b, s);
  }

  /** A first pair that does not parse, such as a value without its closing quote, leaves the list empty; the error is then a missing `}` where that pair began. */
  lemma ParseLabelsBadFirstPair(blanks: string, x: string)
    requires All(blanks, Blank)
    requires Stray(x)
    requires ParseNameValue(x).Err?
    ensures ParseLabels(blanks + "{" + x) == Err(ExpectedToken("}", x))
  {
    var input := blanks + "{" + x;
    assert input == blanks + ("{" + x);
    OpenBrace(blanks, x);
    FirstPairFails(x);
    MissingBraceSteps(input, x, x);
  }

  /** A set cut off after its pairs, with no closing `}`, fails at the blanks after the last value. */
  lemma ParseLabelsCutOff(blanks: string, es: seq<Entry>)
    requires All(blanks, Blank)
    requires |es| > 0 && AllWellWritten(es)
    ensures ParseLabels(blanks + "{" + ListText(es)) == Err(ExpectedToken("}", LastGap(es)))
  {
    NoTails(blanks + "{" + ListText(es), LastGap(es));
    ParseLabelsUnseparated(blanks, es, [], []);
  }

  /** A set cut off after a comma fails at the blanks after that comma. */
  lemma ParseLabelsCutOffAfterComma(blanks: string, es: seq<Entry>, b: string)
    requires All(blanks, Blank) && All(b, Blank)
    requires |es| > 0 && AllWellWritten(es)
    ensures ParseLabels(blanks + "{" + ListText(es) + "," + b) == Err(ExpectedToken("}", b))
  {
    NoTails(blanks + "{" + ListText(es) + "," + b, b);
    ParseLabelsDanglingComma(blanks, es, b, []);
  }

  /** An opening brace followed only by blanks fails at those blanks. */
  lemma ParseLabelsOpenOnly(blanks: string, gap: string)
    requires All(blanks, Blank) && All(gap, Blank)
    ensures ParseLabels(blanks + "{" + gap) == Err(ExpectedToken("}", gap))
  {
    var input := blanks + "{" + gap;
    assert input == blanks + ("{" + gap);
    OpenBrace(blanks, gap);
    EmptyInner(gap);
    MissingBraceSteps(input, gap, gap);
  }

  /** Blanks alone hold no pair and no comma, so `parse_labels_inner` stops in front of them. */
  lemma EmptyInner(gap: string)
    requires All(gap, Blank)
    ensures ParseLabelsInner(gap).rest == gap
    ensures Sp(gap).0 == []
  {
    NoTail(gap);
    SpOf(gap, []);
    NoPairAt(gap, []);
    assert PairList(gap) == Listed([], gap);
  }

  lemma NoTail(s: string)
    ensures s + [] == s
  {
  }

  lemma NoTails(a: string, c: string)
    ensures a + [] + [] == a && a + [] == a
    ensures c + ([] + []) == c && c + [] == c
  {
  }

  /** A first pair that does not parse leaves `parse_labels_inner` where it started, in front of text `sp` does not skip. */
  lemma FirstPairFails(x: string)
    requires Stray(x)
    requires ParseNameValue(x).Err?
    ensures ParseLabelsInner(x).rest == x
    ensures Sp(x).0 == x
  {
    SpOfSolid(x);
    FirstPairStops(x);
  }

  lemma FirstPairStops(x: string)
    requires ParseNameValue(x).Err?
    ensures PairList(x) == Listed([], x)
  {
  }

  /** A pair whose value opens a quote and never closes it does not parse. */
  lemma ParseNameValueUnterminated(name: string, body: string)
    requires ValidName(name)
    requires All(body, Plain)
    ensures ParseNameValue(name + ("=" + ("\"" + body))).Err?
  {
    var afterEq := "\"" + body;
    var afterName := "=" + afterEq;
    ParseNameOf(name, afterName);
    SpOfSolid(afterName);
    UnterminatedPlain(body);
    BadValueSteps(name + afterName, afterName, name, afterEq);
  }

  /** A first pair whose quoted value never closes makes the whole set fail, reported as a missing `}` at that pair. */
  lemma ParseLabelsUnterminated(blanks: string, name: string, body: string)
    requires All(blanks, Blank)
    requires ValidName(name)
    requires All(body, Plain)
    ensures ParseLabels(blanks + "{" + (name + ("=" + ("\"" + body))))
         == Err(ExpectedToken("}", name + ("=" + ("\"" + body))))
  {
    ParseNameValueUnterminated(name, body);
    ParseLabelsBadFirstPair(blanks, name + ("=" + ("\"" + body)));
  }

  lemma BadValueSteps(input: string, afterName: string, name: string, afterEq: string)
    requires ParseName(input) == Ok(afterName, name)
    requires Sp(afterName).0 == "=" + afterEq
    requires ParseEscapedString(afterEq).Err?
    ensures ParseNameValue(input).Err?
  {
    assert ("=" + afterEq)[1..] == afterEq;
  }

  /** A quote followed by plain text only is missing its closing quote. */
  lemma UnterminatedPlain(body: string)
    requires All(body, Plain)
    ensures ParseEscapedString("\"" + body) == Err(ExpectedToken("\"", []))
  {
    DecodeRun(body, []);
    assert body + [] == body;
    assert [] + "\"" + body == "\"" + body;
    ParseEscapedStringUnterminated([], body);
  }

  /** A pair written with no blanks, alone in its list. */
  lemma BareEntryText(e: Entry)
    requires e.beforeName == [] && e.beforeEq == [] && e.beforeValue == [] && e.afterValue == []
    ensures ListText([e]) == e.pair.name + "=" + "\"" + Escape(e.pair.value) + "\""
  {
    assert EntryText(e) == [] + e.pair.name + [] + "=" + [] + "\"" + Escape(e.pair.value) + "\"" + [];
  }

  /** A label set read with a repeated name keeps the value that comes last. */
  lemma {:induction false} CollectLastWins(ps: seq<Label>, i: nat)
    requires i < |ps|
    requires forall j | i < j < |ps| :: ps[j].name != ps[i].name
    ensures ps[i].name in Collect(ps)
    ensures Collect(ps)[ps[i].name] == ps[i].value
  {
    if i < |ps| - 1 {
      var init := ps[..|ps| - 1];
      assert init[i] == ps[i];
      assert forall j | i < j < |init| :: init[j] == ps[j];
      CollectLastWins(init, i);
    }
  }

  /** No two pairs share a name. */
  predicate DistinctNames(ps: seq<Label>) {
    forall i, j | 0 <= i < j < |ps| :: ps[i].name != ps[j].name
  }

  /** With distinct names, the order of the pairs does not matter: the same pairs in any order collect to the same map. */
  lemma CollectOrderInsensitive(ps: seq<Label>, qs: seq<Label>)
    requires multiset(ps) == multiset(qs)
    requires DistinctNames(ps) && DistinctNames(qs)
    ensures Collect(ps) == Collect(qs)
  {
    forall k | k in Collect(ps)
      ensures k in Collect(qs) && Collect(qs)[k] == Collect(ps)[k]
    {
      var i :| 0 <= i < |ps| && ps[i].name == k;
      var j := SamePairAt(ps, qs, i);
      CollectLastWins(ps, i);
      CollectLastWins(qs, j);
    }
    forall k | k in Collect(qs)
      ensures k in Collect(ps)
    {
      var j :| 0 <= j < |qs| && qs[j].name == k;
      var i := SamePairAt(qs, ps, j);
    }
  }

  /** A pair of one sequence sits somewhere in any sequence with the same multiset of pairs. */
  lemma SamePairAt(ps: seq<Label>, qs: seq<Label>, i: nat) returns (j: nat)
    requires multiset(ps) == multiset(qs)
    requires i < |ps|
    ensures j < |qs| && qs[j] == ps[i]
  {
    assert ps[i] in multiset(ps);
    assert ps[i] in qs;
    j :| 0 <= j < |qs| && qs[j] == ps[i];
  }

  /** Every rule of the label grammar leaves a suffix of its input. */
  lemma ParseNameValueSuffix(input: string)
    ensures ParseNameValue(input).Ok? ==> IsSuffix(ParseNameValue(input).rest, input)
  {
    var n := ParseName(input);
    if ParseNameValue(input).Ok? {
      var s := Sp(n.rest).0;
      SpSuffix(n.rest);
      DropOneSuffix(s);
      ParseEscapedStringSound(s[1..]);
      SuffixTransitive(s[1..], s, n.rest);
      SuffixTransitive(s[1..], n.rest, input);
      SuffixTransitive(ParseNameValue(input).rest, s[1..], input);
    }
  }

  lemma {:induction false} MorePairsSuffix(input: string)
    ensures IsSuffix(MorePairs(input).rest, input)
    decreases |input|
  {
    var s := Sp(input).0;
    if |s| > 0 && s[0] == ',' && ParseNameValue(s[1..]).Ok? {
      var next := ParseNameValue(s[1..]);
      MorePairsSuffix(next.rest);
      ParseNameValueSuffix(s[1..]);
      SpSuffix(input);
      DropOneSuffix(s);
      SuffixTransitive(s[1..], s, input);
      SuffixTransitive(next.rest, s[1..], input);
      SuffixTransitive(MorePairs(input).rest, next.rest, input);
    } else {
      assert input[|input| - |input|..] == input;
    }
  }

  lemma PairListSuffix(input: string)
    ensures IsSuffix(PairList(input).rest, input)
  {
    var first := ParseNameValue(input);
    if first.Ok? {
      ParseNameValueSuffix(input);
      MorePairsSuffix(first.rest);
      SuffixTransitive(PairList(input).rest, first.rest, input);
    } else {
      assert input[|input| - |input|..] == input;
    }
  }

  lemma OptCommaSuffix(input: string)
    ensures IsSuffix(OptComma(input), input)
  {
    var s := Sp(input).0;
    SpSuffix(input);
    if |s| > 0 && s[0] == ',' {
      DropOneSuffix(s);
      SuffixTransitive(s[1..], s, input);
    } else {
      assert input[|input| - |input|..] == input;
    }
  }

  lemma ParseLabelsSuffix(input: string)
    ensures ParseLabels(input).Ok? ==> IsSuffix(ParseLabels(input).rest, input)
  {
    var t := TrimSpace(input);
    if |t| > 0 && t[0] == '{' && ParseLabels(input).Ok? {
      var l := PairList(t[1..]);
      var inner := OptComma(l.rest);
      var s := Sp(inner).0;
      DropOneSuffix(t);
      PairListSuffix(t[1..]);
      OptCommaSuffix(l.rest);
      SpSuffix(inner);
      DropOneSuffix(s);
      SuffixTransitive(s[1..], s, inner);
      SuffixTransitive(s[1..], inner, l.rest);
      SuffixTransitive(s[1..], l.rest, t[1..]);
      SuffixTransitive(s[1..], t[1..], t);
      SuffixTransitive(s[1..], t, input);
    }
  }
}

/** The cases of the label-set test, each derived from the general lemmas. */
module LabelsExamples {
  import opened Text
  import opened Parsing
  import opened Names
  import opened EscapedStrings
  import opened Labels
  import opened LabelsTheory

  lemma ExampleEmptySet()
    ensures ParseLabels("  \t {}  .") == Ok("  .", map[])
  {
    assert "  \t {}  ." == "  \t " + "{" + ListText([]) + CloseText(false, "") + "  .";
    ParseLabelsRoundTrip("  \t ", [], false, "", "  .");
  }

  function NameValueEntry(): Entry {
    Entry(Label("name", "value"), "", "", "", "")
  }

  lemma NameValueEntryText()
    ensures WellWritten(NameValueEntry())
    ensures ListText([NameValueEntry()]) == "name=\"value\""
    ensures Collect(LabelsOf([NameValueEntry()])) == map["name" := "value"]
  {
    assert ValidName("name");
    NameValueText();
    NameValueMap();
  }

  lemma NameValueText()
    ensures ListText([NameValueEntry()]) == "name=\"value\""
  {
    BareEntryText(NameValueEntry());
    NameValueParts();
  }

  lemma NameValueParts()
    ensures Escape("value") == "value"
    ensures "name" + "=" + "\"" + "value" + "\"" == "name=\"value\""
  {
    PlainValue();
  }

  lemma PlainValue()
    ensures Escape("value") == "value"
  {
    assert All("value", Plain);
    EscapeVerbatim("value");
  }

  lemma NameValueMap()
    ensures Collect(LabelsOf([NameValueEntry()])) == map["name" := "value"]
  {
    assert LabelsOf([NameValueEntry()]) == [Label("name", "value")];
  }

  lemma OnePairText()
    ensures "  \t {name=\"value\"}  ." == "  \t " + "{" + "name=\"value\"" + CloseText(false, "") + "  ."
  {
    assert CloseText(false, "") == "}";
  }

  lemma TrailingCommaText()
    ensures "  \t {name=\"value\",}  ." == "  \t " + "{" + "name=\"value\"" + CloseText(true, "") + "  ."
  {
    assert CloseText(true, "") == ",}";
  }

  lemma ExampleOnePair()
    ensures ParseLabels("  \t {name=\"value\"}  .") == Ok("  .", map["name" := "value"])
  {
    NameValueEntryText();
    OnePairText();
    ParseLabelsRoundTrip("  \t ", [NameValueEntry()], false, "", "  .");
  }

  lemma ExampleTrailingComma()
    ensures ParseLabels("  \t {name=\"value\",}  .") == Ok("  .", map["name" := "value"])
  {
    NameValueEntryText();
    TrailingCommaText();
    ParseLabelsRoundTrip("  \t ", [NameValueEntry()], true, "", "  .");
  }

  lemma ExampleNoBrace()
    ensures ParseLabels("  \t 100  .") == Ok("100  .", map[])
  {
    assert "  \t 100  ." == "  \t " + "100  .";
    ParseLabelsWithoutBrace("  \t ", "100  .");
  }

  /** `a="b"` with a blank before the name and after the value. */
  function SpacedEntry(): Entry {
    Entry(Label("a", "b"), " ", "", "", " ")
  }

  lemma SpacedEntryText()
    ensures AllWellWritten([SpacedEntry()])
    ensures ListText([SpacedEntry()]) == " a=\"b\" "
    ensures LastGap([SpacedEntry()]) == " "
  {
    assert Escape("b") == "b";
    assert ValidName("a");
    assert WellWritten([SpacedEntry()][0]);
  }

  lemma AdjacentText()
    ensures "  \t { a=\"b\" c=\"d\" }  ." == "  \t " + "{" + " a=\"b\" " + "" + "c=\"d\" }  ."
  {
  }

  /** An empty set with a blank before its comma: `{ ,}` is the empty map. */
  lemma ExampleSpacedComma()
    ensures ParseLabels("{ ,}x") == Ok("x", map[])
  {
    SpacedCommaText();
    ParseLabelsEmptyRoundTrip([], " ", true, "", "x");
  }

  lemma SpacedCommaText()
    ensures "{ ,}x" == [] + "{" + " " + CloseText(true, "") + "x"
    ensures All([], Blank) && All(" ", Blank) && All("", Blank)
  {
    assert CloseText(true, "") == ",}";
  }

  function EntryA(): Entry {
    Entry(Label("a", "1"), "", "", "", "")
  }

  function EntryB(): Entry {
    Entry(Label("b", "2"), "", "", "", "")
  }

  lemma PairTexts()
    ensures ListText([EntryA()]) == "a=\"1\"" && ListText([EntryB()]) == "b=\"2\""
  {
    BareEntryText(EntryA());
    BareEntryText(EntryB());
    assert Escape("1") == "1" && Escape("2") == "2";
  }

  lemma TwoPairText(e: Entry, f: Entry)
    ensures ListText([e, f]) == ListText([e]) + "," + ListText([f])
  {
    assert [e, f][1..] == [f];
  }

  lemma BracedPair(x: string, y: string)
    ensures "{" + x + "," + y + "}" == [] + "{" + (x + "," + y) + CloseText(false, "") + []
  {
    assert CloseText(false, "") == "}";
  }

  lemma BracedAB()
    ensures "{a=\"1\",b=\"2\"}" == "{" + "a=\"1\"" + "," + "b=\"2\"" + "}"
  {
  }

  lemma BracedBA()
    ensures "{b=\"2\",a=\"1\"}" == "{" + "b=\"2\"" + "," + "a=\"1\"" + "}"
  {
  }

  lemma SwappedText()
    ensures "{a=\"1\",b=\"2\"}" == [] + "{" + ListText([EntryA(), EntryB()]) + CloseText(false, "") + []
    ensures "{b=\"2\",a=\"1\"}" == [] + "{" + ListText([EntryB(), EntryA()]) + CloseText(false, "") + []
  {
    PairTexts();
    TwoPairText(EntryA(), EntryB());
    TwoPairText(EntryB(), EntryA());
    BracedAB();
    BracedBA();
    BracedPair("a=\"1\"", "b=\"2\"");
    BracedPair("b=\"2\"", "a=\"1\"");
  }

  lemma SwappedPairs()
    ensures AllWellWritten([EntryA(), EntryB()]) && AllWellWritten([EntryB(), EntryA()])
    ensures multiset(LabelsOf([EntryA(), EntryB()])) == multiset(LabelsOf([EntryB(), EntryA()]))
    ensures DistinctNames(LabelsOf([EntryA(), EntryB()])) && DistinctNames(LabelsOf([EntryB(), EntryA()]))
  {
    assert ValidName("a") && ValidName("b");
    assert LabelsOf([EntryA(), EntryB()]) == [Label("a", "1"), Label("b", "2")];
    assert LabelsOf([EntryB(), EntryA()]) == [Label("b", "2"), Label("a", "1")];
  }

  /** Distinct pairs may come in either order: `{a="1",b="2"}` and `{b="2",a="1"}` read as the same map. */
  lemma ExampleSwappedPairs()
    ensures ParseLabels("{a=\"1\",b=\"2\"}") == ParseLabels("{b=\"2\",a=\"1\"}")
  {
    SwappedText();
    SwappedPairs();
    ParseLabelsOrderInsensitive([], [EntryA(), EntryB()], [EntryB(), EntryA()], false, "", []);
  }

  lemma ExampleAdjacentPairs()
    ensures ParseLabels("  \t { a=\"b\" c=\"d\" }  .").Err?
  {
    SpacedEntryText();
    AdjacentText();
    ParseLabelsUnseparated("  \t ", [SpacedEntry()], "", "c=\"d\" }  .");
  }

  lemma DoubleCommaText()
    ensures "  \t { a=\"b\" ,, c=\"d\" }  ." == "  \t " + "{" + " a=\"b\" " + "," + "" + ", c=\"d\" }  ."
  {
  }

  lemma ExampleDoubleComma()
    ensures ParseLabels("  \t { a=\"b\" ,, c=\"d\" }  .").Err?
  {
    SpacedEntryText();
    DoubleCommaText();
    ParseLabelsDanglingComma("  \t ", [SpacedEntry()], "", ", c=\"d\" }  .");
  }

  lemma CutOffText()
    ensures "{ a=\"b\" " == [] + "{" + " a=\"b\" "
    ensures "{ a=\"b\" ," == [] + "{" + " a=\"b\" " + "," + []
    ensures "{" == [] + "{" + []
    ensures All([], Blank)
  {
  }

  /** A set cut off after its pair is a missing `}` at the blanks after the value. */
  lemma ExampleCutOff()
    ensures ParseLabels("{ a=\"b\" ") == Err(ExpectedToken("}", " "))
  {
    SpacedEntryText();
    CutOffText();
    ParseLabelsCutOff([], [SpacedEntry()]);
  }

  /** A set cut off after a comma is a missing `}` at the end of the input. */
  lemma ExampleCutOffAfterComma()
    ensures ParseLabels("{ a=\"b\" ,") == Err(ExpectedToken("}", []))
  {
    SpacedEntryText();
    CutOffText();
    ParseLabelsCutOffAfterComma([], [SpacedEntry()], []);
  }

  /** A lone `{` is a missing `}` at the end of the input. */
  lemma ExampleLoneBrace()
    ensures ParseLabels("{") == Err(ExpectedToken("}", []))
  {
    CutOffText();
    ParseLabelsOpenOnly([], []);
  }

  /** The unterminated value is reported as a missing `}` at the pair, not as a plain combinator mismatch. */
  lemma ExampleUnterminated()
    ensures ParseLabels("  \t {name=\"value}  .") == Err(ExpectedToken("}", "name=\"value}  ."))
  {
    UnterminatedParts();
    ParseLabelsUnterminated("  \t ", "name", "value}  .");
  }

  lemma UnterminatedParts()
    ensures ValidName("name") && All("value}  .", Plain)
    ensures "name=\"value}  ." == "name" + ("=" + ("\"" + "value}  ."))
    ensures "  \t {name=\"value}  ." == "  \t " + "{" + ("name" + ("=" + ("\"" + "value}  .")))
  {
  }

  /** The test's pairs: blanks around names, `=` and values, and a value holding `}` and `,`. */
  function MixedEntries(): seq<Entry> {
    [ Entry(Label("name", ""), " ", " ", " ", " "),
      Entry(Label("b", "a=b"), "", "", "", " "),
      Entry(Label("a", "},"), " ", "", "", ""),
      Entry(Label("_c", "\""), " ", " ", " ", "") ]
  }

  lemma MixedWellWritten()
    ensures AllWellWritten(MixedEntries())
  {
    assert ValidName("name") && ValidName("b") && ValidName("a") && ValidName("_c");
    assert WellWritten(MixedEntries()[0]) && WellWritten(MixedEntries()[1]);
    assert WellWritten(MixedEntries()[2]) && WellWritten(MixedEntries()[3]);
  }

  lemma MixedFirst()
    ensures EntryText(MixedEntries()[0]) == " name = \"\" "
  {
    assert Escape("") == "";
  }

  lemma MixedSecond()
    ensures EntryText(MixedEntries()[1]) == "b=\"a=b\" "
  {
    assert All("a=b", Plain);
    EscapeVerbatim("a=b");
  }

  lemma MixedThird()
    ensures EntryText(MixedEntries()[2]) == " a=\"},\""
  {
    assert All("},", Plain);
    EscapeVerbatim("},");
  }

  lemma MixedFourth()
    ensures EntryText(MixedEntries()[3]) == " _c = \"\\\"\""
  {
    assert Escape("\"") == "\\\"";
  }

  lemma MixedList()
    ensures ListText(MixedEntries()) == " name = \"\" " + "," + ("b=\"a=b\" " + "," + (" a=\"},\"" + "," + " _c = \"\\\"\""))
  {
    var es := MixedEntries();
    MixedFirst();
    MixedSecond();
    MixedThird();
    MixedFourth();
    assert es[1..][1..][1..] == [es[3]];
    assert ListText(es[1..][1..]) == EntryText(es[2]) + "," + EntryText(es[3]);
    assert ListText(es[1..]) == EntryText(es[1]) + "," + ListText(es[1..][1..]);
  }

  lemma MixedMap()
    ensures Collect(LabelsOf(MixedEntries())) == map["name" := "", "a" := "},", "b" := "a=b", "_c" := "\""]
  {
    var es := MixedEntries();
    var ps := [es[0].pair, es[1].pair, es[2].pair, es[3].pair];
    assert LabelsOf(es) == ps by {
      assert es[1..][1..][1..][1..] == [];
    }
    assert ps[..3][..2][..1][..0] == [];
    assert Collect(ps[..3][..2][..1]) == map["name" := ""];
    assert Collect(ps[..3][..2]) == map["name" := "", "b" := "a=b"];
    assert Collect(ps[..3]) == map["name" := "", "b" := "a=b", "a" := "},"];
  }

  /** The test's input, written in two halves. */
  lemma MixedText()
    ensures "  \t " + "{ name = \"\" ,b=\"a=b\" ," + " a=\"},\", _c = \"\\\"\"}  ."
         == "  \t " + "{" + (" name = \"\" " + "," + ("b=\"a=b\" " + "," + (" a=\"},\"" + "," + " _c = \"\\\"\""))) + "}" + "  ."
  {
    MixedLeft();
    MixedRight();
    MixedHalves("  \t ", "{", " name = \"\" ", "b=\"a=b\" ", " a=\"},\"", " _c = \"\\\"\"", "}", "  .");
  }

  lemma MixedLeft()
    ensures "{ name = \"\" ,b=\"a=b\" ," == "{" + " name = \"\" " + "," + "b=\"a=b\" " + ","
  {
  }

  lemma MixedRight()
    ensures " a=\"},\", _c = \"\\\"\"}  ." == " a=\"},\"" + "," + " _c = \"\\\"\"" + "}" + "  ."
  {
  }

  lemma MixedHalves(b: string, o: string, e1: string, e2: string, e3: string, e4: string, c: string, t: string)
    ensures b + (o + e1 + "," + e2 + ",") + (e3 + "," + e4 + c + t)
         == b + o + (e1 + "," + (e2 + "," + (e3 + "," + e4))) + c + t
  {
  }

  lemma ClosedPlainly()
    ensures CloseText(false, "") == "}"
  {
  }

  /** Blanks around names, `=` and values, and a value holding `}` and `,`, are all read. */
  lemma ExampleMixedSpacing()
    ensures ParseLabels("  \t " + "{ name = \"\" ,b=\"a=b\" ," + " a=\"},\", _c = \"\\\"\"}  .")
         == Ok("  .", map["name" := "", "a" := "},", "b" := "a=b", "_c" := "\""])
  {
    MixedWellWritten();
    MixedList();
    MixedMap();
    MixedText();
    ClosedPlainly();
    ParseLabelsRoundTrip("  \t ", MixedEntries(), false, "", "  .");
  }
}

=== FILE: lines.dfy ===
/**
 `Line::parse_inner` and `Line::parse`: one line of the exposition format,
 trimmed of Unicode whitespace, is a sample, a TYPE header, some other
 comment, or empty. Comments other than TYPE lines and empty lines yield no
 line at all.
 */
module Lines {
  import opened Text
  import opened Parsing
  import opened Names
  import opened Headers
  import opened Metrics

  datatype Line = HeaderLine(header: Header) | MetricLine(metric: Metric)

  /** What `Line::parse` returns: the line, absent for blanks and comments, or a failure whose error value is not modelled. */
  datatype Outcome = Parsed(line: Option<Line>) | Failed

  /** `parse_inner`: nom's `alt` over a sample, a header and a bare `#`, first success wins. */
  function ParseLineInner(input: string): (r: Scan<Option<Line>>)
    ensures r.NoMatch? ==> Trim(input) != [] && Trim(input)[0] != '#'
    ensures r.Match? && r.value.Some? && r.value.value.MetricLine? ==> ValidName(r.value.value.metric.name)
    ensures r.Match? && r.value.Some? && r.value.value.HeaderLine? ==> ValidName(r.value.value.header.metricName)
  {
    var t := Trim(input);
    if t == [] then
      Match(None, t)
    else
      var m := ParseMetric(t);
      if m.Ok? then
        Match(Some(MetricLine(m.value)), m.rest)
      else
        var h := ParseHeader(t);
        if h.Ok? then Match(Some(HeaderLine(h.value)), h.rest)
        else if t[0] == '#' then Match(None, t[1..])
        else NoMatch
  }

  /** `Line::parse`: the remaining input is dropped. */
  function ParseLine(input: string): (r: Outcome)
    ensures r.Failed? ==> Trim(input) != [] && Trim(input)[0] != '#'
    ensures r.Parsed? && r.line.Some? && r.line.value.MetricLine? ==> ValidName(r.line.value.metric.name)
  {
    var l := ParseLineInner(input);
    if l.Match? then Parsed(l.value) else Failed
  }
}

/** Properties of `Line::parse`. */
module LinesTheory {
  import opened Text
  import opened Parsing
  import opened Names
  import opened Values
  import opened EscapedStrings
  import opened Labels
  import opened LabelsTheory
  import opened Headers
  import opened HeadersTheory
  import opened Metrics
  import opened MetricsTheory
  import opened Lines

  /** Text with no whitespace at either end, which `str::trim` leaves alone. */
  predicate Solid(core: string) {
    |core| > 0 && !IsWhitespace(core[0]) && !IsWhitespace(core[|core| - 1])
  }

  /** A line fails exactly when, once trimmed, it is not empty, does not start with `#`, and is not a sample; a line starting with `#` never fails, header or not. */
  lemma ParseLineFails(input: string)
    ensures ParseLine(input).Failed? <==> var t := Trim(input); t != [] && t[0] != '#' && ParseMetric(t).Err?
  {
    var t := Trim(input);
    if t != [] && t[0] != '#' {
      ParseHeaderNoHash([], t);
    }
  }

  /** What `parse_inner` leaves over is a suffix of the trimmed line; `Line::parse` then drops it. */
  lemma ParseLineInnerSuffix(input: string)
    ensures var r := ParseLineInner(input); r.Match? ==> IsSuffix(r.rest, Trim(input))
  {
    var t := Trim(input);
    if t != [] {
      ParseMetricSuffix(t);
      if ParseMetric(t).Err? {
        ParseHeaderSuffix(t);
        if ParseHeader(t).Err? && t[0] == '#' {
          DropOneSuffix(t);
        }
      }
    }
  }

  /** A line of whitespace, the empty line included, yields no line. */
  lemma ParseLineBlank(input: string)
    requires All(input, White)
    ensures ParseLine(input) == Parsed(None)
  {
    TrimEmptyIffWhitespace(input);
  }

  /** A line starting with `#` is not a sample. */
  lemma HashIsNoSample(core: string)
    requires |core| > 0 && core[0] == '#'
    ensures ParseMetric(core) == Err(ParseNameError(core))
  {
    TrimSpaceOfSolid(core);
    assert ParseName(core) == Err(ParseNameError(core)) by {
      assert !IsNameStart(core[0]);
    }
  }

  /** A comment that is not a TYPE header, such as a HELP line, yields no line. */
  lemma ParseLineComment(lead: string, core: string, trail: string)
    requires All(lead, White) && All(trail, White)
    requires Solid(core) && core[0] == '#'
    requires ParseHeader(core).Err?
    ensures ParseLine(lead + core + trail) == Parsed(None)
  {
    assert Trim(lead + core + trail) == core by {
      TrimAround(lead, core, trail);
    }
    HashIsNoSample(core);
  }

  /** A TYPE header line yields its header. */
  lemma ParseLineHeader(lead: string, core: string, trail: string)
    requires All(lead, White) && All(trail, White)
    requires Solid(core) && core[0] == '#'
    requires ParseHeader(core).Ok?
    ensures ParseLine(lead + core + trail) == Parsed(Some(HeaderLine(ParseHeader(core).value)))
  {
    assert Trim(lead + core + trail) == core by {
      TrimAround(lead, core, trail);
    }
    HashIsNoSample(core);
  }

  /** A sample line yields its sample; whatever follows the value, such as a timestamp, is ignored. */
  lemma ParseLineMetric(lead: string, core: string, trail: string)
    requires All(lead, White) && All(trail, White)
    requires Solid(core)
    requires ParseMetric(core).Ok?
    ensures ParseLine(lead + core + trail) == Parsed(Some(MetricLine(ParseMetric(core).value)))
  {
    TrimAround(lead, core, trail);
  }

  /** The text of a value ends in a digit, a `.`, or the last letter of a sentinel. */
  lemma ValueEndsSolid(v: Value)
    requires v.Num? ==> WellFormed(v.literal)
    ensures var t := RenderValue(v); |t| > 0 && !IsWhitespace(t[|t| - 1])
  {
    var t := RenderValue(v);
    if v.Num? {
      FloatEnds(v.literal);
      NotWhite(t[|t| - 1]);
    } else {
      assert t[|t| - 1] == 'f' || t[|t| - 1] == 'n';
    }
  }

  /** Digits, letters and `.` are not whitespace. */
  lemma NotWhite(c: char)
    requires IsDigit(c) || IsAsciiLetter(c) || c == '.'
    ensures !IsWhitespace(c)
  {
  }

  /** A literal's text ends in a digit or a `.`. */
  lemma FloatEnds(lit: FloatLit)
    requires WellFormed(lit)
    ensures var t := RenderFloat(lit); |t| > 0 && (IsDigit(t[|t| - 1]) || t[|t| - 1] == '.')
  {
    var front := RenderSign(lit.sign) + RenderMantissa(lit.mantissa);
    var e := RenderExponent(lit.exponent);
    MantissaEnds(lit.mantissa);
    LastOf(RenderSign(lit.sign), RenderMantissa(lit.mantissa));
    if lit.exponent.Exponent? {
      ExponentEnds(lit.exponent);
      LastOf(front, e);
    } else {
      assert front + e == front;
    }
  }

  lemma LastOf(a: string, b: string)
    requires |b| > 0
    ensures |a + b| > 0 && (a + b)[|a + b| - 1] == b[|b| - 1]
  {
  }

  lemma MantissaEnds(m: Mantissa)
    requires WellFormedMantissa(m)
    ensures var t := RenderMantissa(m); |t| > 0 && (IsDigit(t[|t| - 1]) || t[|t| - 1] == '.')
  {
    var t := RenderMantissa(m);
    var dot: string := if m.dot then "." else "";
    if |m.fraction| > 0 {
      LastOf(m.whole + dot, m.fraction);
    } else if m.dot {
      assert t == m.whole + "." + [];
    } else {
      assert t == m.whole + [] + [];
    }
  }

  lemma ExponentEnds(e: Exponent)
    requires e.Exponent? && WellFormedExponent(e)
    ensures var t := RenderExponent(e); |t| > 0 && IsDigit(t[|t| - 1])
  {
    LastOf((if e.upper then "E" else "e") + RenderSign(e.sign), e.digits);
  }

  /** A name starts with a character that is not whitespace. */
  lemma NameStartsSolid(name: string, rest: string)
    requires ValidName(name)
    ensures |name + rest| > 0 && !IsWhitespace((name + rest)[0])
  {
    assert (name + rest)[0] == name[0];
  }

  /** What follows a value ends the text solidly, or is absent and the value ends it. */
  lemma EndsSolid(text: string, tail: string)
    requires |text| > 0 && !IsWhitespace(text[|text| - 1])
    requires tail == [] || !IsWhitespace(tail[|tail| - 1])
    ensures var t := text + tail; |t| > 0 && !IsWhitespace(t[|t| - 1])
  {
    var t := text + tail;
    if tail == [] {
      assert t == text;
    } else {
      assert t[|t| - 1] == tail[|tail| - 1];
    }
  }

  lemma LabelledTextSolid(name: string, g1: string, es: seq<Entry>, comma: bool, gap: string, g2: string, v: Value)
    requires ValidName(name)
    requires v.Num? ==> WellFormed(v.literal)
    ensures Solid(LabelledText(name, g1, es, comma, gap, g2, v))
  {
    var text := LabelledText(name, g1, es, comma, gap, g2, v);
    var front := name + g1 + "{" + ListText(es) + CloseText(comma, gap) + g2;
    assert text == front + RenderValue(v);
    assert text[0] == name[0];
    ValueEndsSolid(v);
    assert text[|text| - 1] == RenderValue(v)[|RenderValue(v)| - 1];
  }

  /** A sample line with a label set, surrounded by any whitespace, yields its sample; a timestamp or other tokens after the value are ignored. */
  lemma ParseLineLabelledSample(lead: string, name: string, g1: string, es: seq<Entry>, comma: bool, gap: string, g2: string, v: Value, tail: string, trail: string)
    requires All(lead, White) && All(trail, White)
    requires All(g1, Blank) && All(gap, Blank) && All(g2, Blank)
    requires ValidName(name)
    requires AllWellWritten(es)
    requires v.Num? ==> WellFormed(v.literal)
    requires Delimits(tail)
    requires tail == [] || !IsWhitespace(tail[|tail| - 1])
    ensures ParseLine(lead + (LabelledText(name, g1, es, comma, gap, g2, v) + tail) + trail) == Parsed(Some(MetricLine(Metric(name, Collect(LabelsOf(es)), v))))
  {
    var text := LabelledText(name, g1, es, comma, gap, g2, v);
    var core := text + tail;
    assert Solid(core) by {
      LabelledTextSolid(name, g1, es, comma, gap, g2, v);
      assert core[0] == text[0];
      EndsSolid(text, tail);
    }
    assert ParseMetric(core) == Ok(tail, Metric(name, Collect(LabelsOf(es)), v)) by {
      NoBlanks(text, tail);
      ParseMetricRoundTrip([], name, g1, es, comma, gap, g2, v, tail);
    }
    ParseLineMetric(lead, core, trail);
  }

  lemma UnlabelledTextSolid(name: string, gap: string, v: Value)
    requires ValidName(name)
    requires v.Num? ==> WellFormed(v.literal)
    ensures Solid(name + gap + RenderValue(v))
  {
    var text := name + gap + RenderValue(v);
    assert text[0] == name[0];
    ValueEndsSolid(v);
    assert text[|text| - 1] == RenderValue(v)[|RenderValue(v)| - 1];
  }

  /** A sample line without a label set, surrounded by any whitespace, yields its sample with no labels. */
  lemma ParseLineUnlabelledSample(lead: string, name: string, gap: string, v: Value, tail: string, trail: string)
    requires All(lead, White) && All(trail, White)
    requires All(gap, Blank) && Separates(gap, v)
    requires ValidName(name)
    requires v.Num? ==> WellFormed(v.literal)
    requires Delimits(tail)
    requires tail == [] || !IsWhitespace(tail[|tail| - 1])
    ensures ParseLine(lead + (name + gap + RenderValue(v) + tail) + trail) == Parsed(Some(MetricLine(Metric(name, map[], v))))
  {
    UnlabelledCoreSolid(name, gap, v, tail);
    UnlabelledCoreMetric(name, gap, v, tail);
    ParseLineMetric(lead, name + gap + RenderValue(v) + tail, trail);
  }

  lemma UnlabelledCoreSolid(name: string, gap: string, v: Value, tail: string)
    requires ValidName(name)
    requires v.Num? ==> WellFormed(v.literal)
    requires tail == [] || !IsWhitespace(tail[|tail| - 1])
    ensures Solid(name + gap + RenderValue(v) + tail)
  {
    var text := name + gap + RenderValue(v);
    UnlabelledTextSolid(name, gap, v);
    assert (text + tail)[0] == text[0];
    EndsSolid(text, tail);
  }

  lemma UnlabelledCoreMetric(name: string, gap: string, v: Value, tail: string)
    requires All(gap, Blank) && Separates(gap, v)
    requires ValidName(name)
    requires v.Num? ==> WellFormed(v.literal)
    requires Delimits(tail)
    ensures ParseMetric(name + gap + RenderValue(v) + tail) == Ok(tail, Metric(name, map[], v))
  {
    NoBlanks(name, gap);
    ParseMetricUnlabelledRoundTrip([], name, gap, v, tail);
  }

  lemma HeaderTextSolid(h: Header, g1: string, g2: string, g3: string)
    ensures Solid(HeaderText(h, g1, g2, g3))
    ensures HeaderText(h, g1, g2, g3)[0] == '#'
  {
    var kw := Keyword(h.kind);
    var front := "#" + g1 + "TYPE" + g2 + h.metricName + g3;
    assert HeaderText(h, g1, g2, g3) == front + kw;
    assert front[0] == '#';
    LastOf(front, kw);
    NotWhite(kw[|kw| - 1]);
  }

  /** A TYPE line with nothing around it reads as its header. */
  lemma HeaderAlone(h: Header, g1: string, g2: string, g3: string)
    requires All(g1, Blank) && All(g2, Blank) && All(g3, Blank) && |g3| > 0
    requires ValidName(h.metricName)
    ensures ParseHeader(HeaderText(h, g1, g2, g3)) == Ok([], h)
  {
    var core := HeaderText(h, g1, g2, g3);
    assert core == [] + core + [];
    ParseHeaderRoundTrip([], h, g1, g2, g3, []);
  }

  /** A TYPE line, surrounded by any whitespace, yields its header. */
  lemma ParseLineTypeHeader(lead: string, h: Header, g1: string, g2: string, g3: string, trail: string)
    requires All(lead, White) && All(trail, White)
    requires All(g1, Blank) && All(g2, Blank) && All(g3, Blank) && |g3| > 0
    requires ValidName(h.metricName)
    ensures ParseLine(lead + HeaderText(h, g1, g2, g3) + trail) == Parsed(Some(HeaderLine(h)))
  {
    HeaderTextSolid(h, g1, g2, g3);
    HeaderAlone(h, g1, g2, g3);
    ParseLineHeader(lead, HeaderText(h, g1, g2, g3), trail);
  }

  /** A HELP comment whose text ends in non-whitespace yields no line. */
  lemma HelpLine(lead: string, words: string)
    requires All(lead, White)
    requires |words| > 0 && !IsWhitespace(words[|words| - 1])
    ensures ParseLine(lead + ("#" + " " + ("HELP" + words))) == Parsed(None)
  {
    var core := "#" + " " + ("HELP" + words);
    HelpIsNoHeader(words);
    HelpIsSolid(words);
    NoTrail(lead, core);
    ParseLineComment(lead, core, []);
  }

  lemma HelpIsNoHeader(words: string)
    ensures ParseHeader("#" + " " + ("HELP" + words)).Err?
  {
    var help := "HELP" + words;
    assert [] + "#" + " " + help == "#" + " " + help;
    assert help[0] == 'H';
    ParseHeaderNoType([], " ", help);
  }

  lemma HelpIsSolid(words: string)
    requires |words| > 0 && !IsWhitespace(words[|words| - 1])
    ensures var core := "#" + " " + ("HELP" + words); Solid(core) && core[0] == '#'
  {
    var core := "#" + " " + ("HELP" + words);
    assert core[|core| - 1] == words[|words| - 1];
  }

  /** No whitespace after a line is the empty case of trailing whitespace. */
  lemma NoTrail(lead: string, core: string)
    ensures lead + core + [] == lead + core
    ensures All([], White)
  {
  }

  lemma OneLabelText(name: string, e: Entry, v: Value, tail: string)
    requires e.beforeName == [] && e.beforeEq == [] && e.beforeValue == [] && e.afterValue == []
    ensures LabelledText(name, [], [e], false, [], " ", v) + tail
         == name + "{" + (e.pair.name + "=" + "\"" + Escape(e.pair.value) + "\"") + "}" + " " + RenderValue(v) + tail
  {
    var pairText := e.pair.name + "=" + "\"" + Escape(e.pair.value) + "\"";
    BareEntryText(e);
    assert CloseText(false, []) == "}";
    assert LabelledText(name, [], [e], false, [], " ", v) == name + [] + "{" + pairText + "}" + " " + RenderValue(v);
  }

  /** A sample with a single label and no extra blanks, followed by a timestamp or other tokens, surrounded by any whitespace. */
  lemma OneLabelLine(lead: string, name: string, key: string, value: string, v: Value, tail: string)
    requires All(lead, White)
    requires ValidName(name) && ValidName(key)
    requires v.Num? ==> WellFormed(v.literal)
    requires Delimits(tail)
    requires tail == [] || !IsWhitespace(tail[|tail| - 1])
    ensures ParseLine(lead + (name + "{" + (key + "=" + "\"" + Escape(value) + "\"") + "}" + " " + RenderValue(v) + tail))
         == Parsed(Some(MetricLine(Metric(name, map[key := value], v))))
  {
    var e := Entry(Label(key, value), [], [], [], []);
    assert AllWellWritten([e]) by {
      assert WellWritten([e][0]);
    }
    assert Collect(LabelsOf([e])) == map[key := value] by {
      assert LabelsOf([e]) == [Label(key, value)];
    }
    OneLabelText(name, e, v, tail);
    assert lead + (LabelledText(name, [], [e], false, [], " ", v) + tail) + [] == lead + (LabelledText(name, [], [e], false, [], " ", v) + tail);
    ParseLineLabelledSample(lead, name, [], [e], false, [], " ", v, tail, []);
  }
}

/** Lines of the exposition-format sample in the line test, each derived from the general lemmas. */
module LinesExamples {
  import opened Text
  import opened Parsing
  import opened Names
  import opened Values
  import opened EscapedStrings
  import opened Labels
  import opened LabelsTheory
  import opened Headers
  import opened HeadersTheory
  import opened Metrics
  import opened MetricsTheory
  import opened Lines
  import opened LinesTheory

  /** The indentation every line of the sample carries. */
  function Indent(): string {
    "            "
  }

  lemma IndentIsWhite()
    ensures All(Indent(), White)
  {
  }

  lemma ExampleEmptyLine()
    ensures ParseLine("") == Parsed(None)
  {
    ParseLineBlank("");
  }

  lemma ExampleIndentOnly()
    ensures ParseLine(Indent()) == Parsed(None)
  {
    IndentIsWhite();
    ParseLineBlank(Indent());
  }

  function Minimal(): Value {
    Num(FloatLit(NoSign, Mantissa("12", true, "47"), NoExponent))
  }

  lemma MinimalParts()
    ensures ValidName("metric_without_timestamp_and_labels")
    ensures WellFormed(Minimal().literal)
    ensures RenderValue(Minimal()) == "12.47"
  {
    MinimalName();
  }

  lemma MinimalName()
    ensures ValidName("metric_without_timestamp_and_labels")
  {
  }

  /** `metric_without_timestamp_and_labels 12.47`, indented. */
  lemma ExampleMinimalistic()
    ensures ParseLine(Indent() + ("metric_without_timestamp_and_labels" + " " + "12.47"))
         == Parsed(Some(MetricLine(Metric("metric_without_timestamp_and_labels", map[], Minimal()))))
  {
    var name := "metric_without_timestamp_and_labels";
    var core := name + " " + RenderValue(Minimal());
    assert ParseLine(Indent() + core) == Parsed(Some(MetricLine(Metric(name, map[], Minimal())))) by {
      MinimalParts();
      IndentIsWhite();
      assert core + [] == core;
      assert Indent() + core + [] == Indent() + core;
      ParseLineUnlabelledSample(Indent(), name, " ", Minimal(), [], []);
    }
    assert RenderValue(Minimal()) == "12.47" by {
      MinimalParts();
    }
  }

  function MinusOne(): Value {
    Num(FloatLit(Minus, Mantissa("1", false, ""), NoExponent))
  }

  lemma MinusOneParts()
    ensures WellFormed(MinusOne().literal)
    ensures RenderValue(MinusOne()) == "-1"
    ensures "m" + [] + "-1" + [] == "m-1" && [] + "m-1" + [] == "m-1"
  {
  }

  /** A value starting with a sign may follow the name directly: `m-1` is a sample. */
  lemma ExampleSignedNoGap()
    ensures ParseLine("m-1") == Parsed(Some(MetricLine(Metric("m", map[], MinusOne()))))
  {
    MinusOneParts();
    assert ValidName("m");
    ParseLineUnlabelledSample([], "m", [], MinusOne(), [], []);
  }

  lemma PosInfParts()
    ensures "m" + [] + "+Inf" + [] == "m+Inf" && [] + "m+Inf" + [] == "m+Inf"
  {
  }

  /** `m+Inf` is a sample with value positive infinity. */
  lemma ExampleInfNoGap()
    ensures ParseLine("m+Inf") == Parsed(Some(MetricLine(Metric("m", map[], PosInf))))
  {
    PosInfParts();
    assert ValidName("m");
    ParseLineUnlabelledSample([], "m", [], PosInf, [], []);
  }

  /** `# TYPE http_requests_total counter`, indented. */
  lemma ExampleTypeLine()
    ensures ParseLine(Indent() + ("#" + " " + "TYPE" + " " + "http_requests_total" + " " + "counter"))
         == Parsed(Some(HeaderLine(Header("http_requests_total", Counter))))
  {
    var h := Header("http_requests_total", Counter);
    var core := HeaderText(h, " ", " ", " ");
    assert ParseLine(Indent() + core) == Parsed(Some(HeaderLine(h))) by {
      assert Indent() + core + [] == Indent() + core;
      assert ValidName("http_requests_total");
      IndentIsWhite();
      ParseLineTypeHeader(Indent(), h, " ", " ", " ", []);
    }
    assert core == "#" + " " + "TYPE" + " " + "http_requests_total" + " " + "counter";
  }

  /** `# HELP http_requests_total The total number of HTTP requests.`, indented: a comment, so no line. */
  lemma ExampleHelpLine()
    ensures ParseLine(Indent() + ("#" + " " + ("HELP" + " http_requests_total The total number of HTTP requests."))) == Parsed(None)
  {
    IndentIsWhite();
    HelpLine(Indent(), " http_requests_total The total number of HTTP requests.");
  }

  lemma WeirdValue()
    ensures Escape("division by zero") == "division by zero"
  {
    EscapeVerbatim("division by zero");
  }

  /** `something_weird{problem="division by zero"} +Inf -3982045`, indented: the timestamp after the value is ignored. */
  lemma ExampleWeird()
    ensures ParseLine(Indent() + ("something_weird" + "{" + ("problem" + "=" + "\"" + "division by zero" + "\"") + "}" + " " + "+Inf" + " -3982045"))
         == Parsed(Some(MetricLine(Metric("something_weird", map["problem" := "division by zero"], PosInf))))
  {
    IndentIsWhite();
    assert ValidName("something_weird") && ValidName("problem");
    OneLabelLine(Indent(), "something_weird", "problem", "division by zero", PosInf, " -3982045");
    WeirdValue();
  }

  function Count(): Value {
    Num(FloatLit(NoSign, Mantissa("24054", false, ""), NoExponent))
  }

  lemma BucketParts()
    ensures Escape("0.05") == "0.05"
    ensures WellFormed(Count().literal)
    ensures RenderValue(Count()) == "24054"
  {
    EscapeVerbatim("0.05");
  }

  lemma BucketName()
    ensures ValidName("http_request_duration_seconds_bucket")
  {
  }

  /** `http_request_duration_seconds_bucket{le="0.05"} 24054`, indented. */
  lemma ExampleBucket()
    ensures ParseLine(Indent() + ("http_request_duration_seconds_bucket" + "{" + ("le" + "=" + "\"" + "0.05" + "\"") + "}" + " " + "24054" + []))
         == Parsed(Some(MetricLine(Metric("http_request_duration_seconds_bucket", map["le" := "0.05"], Count()))))
  {
    var name := "http_request_duration_seconds_bucket";
    var text := Indent() + (name + "{" + ("le" + "=" + "\"" + Escape("0.05") + "\"") + "}" + " " + RenderValue(Count()) + []);
    assert ParseLine(text) == Parsed(Some(MetricLine(Metric(name, map["le" := "0.05"], Count())))) by {
      IndentIsWhite();
      BucketName();
      BucketParts();
      assert ValidName("le");
      OneLabelLine(Indent(), name, "le", "0.05", Count(), []);
    }
    BucketParts();
  }
}

=== FILE: metrics.dfy ===
/**
 `Metric::parse`: a sample line `name [ "{" pairs "}" ] value [ timestamp ]`.
 The rule reads the name, the optional label set and the value, and leaves
 everything after the value, a timestamp included, unconsumed.
 */
module Metrics {
  import opened Text
  import opened Parsing
  import opened Names
  import opened Values
  import opened Labels

  /** One sample. The label map is ordered by key in the source; a Dafny map has no order, which changes nothing a caller can observe through lookup. */
  datatype Metric = Metric(name: string, labels: map<string, string>, value: Value)

  function ParseMetric(input: string): (r: IResult<Metric>)
    ensures r.Ok? ==> ValidName(r.value.name)
    ensures r.Ok? ==> forall k | k in r.value.labels :: ValidName(k)
    ensures r.Ok? && r.value.value.Num? ==> WellFormed(r.value.value.literal)
    ensures r.Err? ==> r.error.ParseNameError? || r.error.ParseFloatError? || (r.error.ExpectedToken? && r.error.expected == "}")
  {
    var n := ParseName(TrimSpace(input));
    if n.Err? then
      Err(n.error)
    else
      var l := ParseLabels(n.rest);
      if l.Err? then
        Err(l.error)
      else
        var v := ParseValue(l.rest);
        if v.Err? then Err(v.error) else Ok(v.rest, Metric(n.value, l.value, v.value))
  }
}

/** How sample lines are written, and the properties of `Metric::parse` over them. */
module MetricsTheory {
  import opened Text
  import opened Parsing
  import opened Names
  import opened Values
  import opened Labels
  import opened LabelsTheory
  import opened Metrics

  /** The steps of `Metric::parse` once the name and the label set have been read. */
  lemma MetricSteps(input: string, afterName: string, name: string, afterLabels: string, labels: map<string, string>)
    requires ParseName(TrimSpace(input)) == Ok(afterName, name)
    requires ParseLabels(afterName) == Ok(afterLabels, labels)
    ensures var v := ParseValue(afterLabels);
      ParseMetric(input) == if v.Err? then Err(v.error) else Ok(v.rest, Metric(name, labels, v.value))
  {
  }

  /** Blanks, a name and text that cannot continue it: `Metric::parse` reads the name as `parse_name` does. */
  lemma MetricName(blanks: string, name: string, rest: string)
    requires All(blanks, Blank)
    requires ValidName(name)
    requires rest == [] || !IsNameChar(rest[0])
    ensures ParseName(TrimSpace(blanks + name + rest)) == Ok(rest, name)
  {
    assert blanks + name + rest == blanks + (name + rest);
    TrimSpaceOf(blanks, name + rest);
    assert [] + name + rest == name + rest;
    ParseNameRoundTrip([], name, rest);
  }

  /** The text of a sample with a label set: name, blanks, the set, blanks, the value. */
  function LabelledText(name: string, g1: string, es: seq<Entry>, comma: bool, gap: string, g2: string, v: Value): string {
    name + g1 + "{" + ListText(es) + CloseText(comma, gap) + g2 + RenderValue(v)
  }

  lemma Regroup(a: string, b: string, c: string, d: string, e: string, f: string, g: string, h: string, i: string)
    ensures a + (b + c + d + e + f + g + h) + i == a + b + (c + d + e + f + (g + h + i))
  {
    Associate5(c, d, e, f, g + h + i);
    Associate5(b, c, d, e, f);
  }

  /** Round trip for a sample with a label set: the name, the map of the written pairs and the value are read back, and everything after the value, such as a timestamp, is left. */
  lemma ParseMetricRoundTrip(blanks: string, name: string, g1: string, es: seq<Entry>, comma: bool, gap: string, g2: string, v: Value, tail: string)
    requires All(blanks, Blank) && All(g1, Blank) && All(gap, Blank) && All(g2, Blank)
    requires ValidName(name)
    requires AllWellWritten(es)
    requires v.Num? ==> WellFormed(v.literal)
    requires Delimits(tail)
    ensures ParseMetric(blanks + LabelledText(name, g1, es, comma, gap, g2, v) + tail) == Ok(tail, Metric(name, Collect(LabelsOf(es)), v))
  {
    var input := blanks + LabelledText(name, g1, es, comma, gap, g2, v) + tail;
    var afterLabels := g2 + RenderValue(v) + tail;
    var afterName := g1 + "{" + ListText(es) + CloseText(comma, gap) + afterLabels;
    assert input == blanks + name + afterName by {
      Regroup(blanks, name, g1, "{", ListText(es), CloseText(comma, gap), g2, RenderValue(v), tail);
    }
    assert ParseName(TrimSpace(input)) == Ok(afterName, name) by {
      assert |g1| > 0 ==> afterName[0] == g1[0];
      assert |g1| == 0 ==> afterName[0] == '{';
      MetricName(blanks, name, afterName);
    }
    assert ParseLabels(afterName) == Ok(afterLabels, Collect(LabelsOf(es))) by {
      ParseLabelsRoundTrip(g1, es, comma, gap, afterLabels);
    }
    assert ParseValue(afterLabels) == Ok(tail, v) by {
      ParseValueRoundTrip(g2, v, tail);
    }
    MetricSteps(input, afterName, name, afterLabels, Collect(LabelsOf(es)));
  }

  lemma NoBlanks(a: string, b: string)
    ensures [] + a + b == a + b
    ensures All([], Blank)
  {
  }

  /** A value's text starts with neither a blank nor a brace. */
  lemma ValueStart(v: Value, tail: string)
    requires v.Num? ==> WellFormed(v.literal)
    ensures var t := RenderValue(v) + tail; |t| > 0 && !IsBlank(t[0]) && t[0] != '{'
  {
    if v.Num? {
      RenderFloatStart(v.literal, tail);
    } else {
      assert (RenderValue(v) + tail)[0] == RenderValue(v)[0];
    }
  }

  /** Between a name and an unlabelled value there must be blanks unless the value starts with a character no name can contain (`-1`, `+Inf`, `.5`); otherwise the value would continue the name. */
  predicate Separates(gap: string, v: Value) {
    |gap| > 0 || (|RenderValue(v)| > 0 && !IsNameChar(RenderValue(v)[0]))
  }

  /** Round trip for a sample without a label set, including a signed value written right after the name. */
  lemma ParseMetricUnlabelledRoundTrip(blanks: string, name: string, gap: string, v: Value, tail: string)
    requires All(blanks, Blank) && All(gap, Blank)
    requires Separates(gap, v)
    requires ValidName(name)
    requires v.Num? ==> WellFormed(v.literal)
    requires Delimits(tail)
    ensures ParseMetric(blanks + name + gap + RenderValue(v) + tail) == Ok(tail, Metric(name, map[], v))
  {
    var input := blanks + name + gap + RenderValue(v) + tail;
    var afterLabels := RenderValue(v) + tail;
    var afterName := gap + afterLabels;
    assert input == blanks + name + afterName by {
      Associate(blanks + name, gap, RenderValue(v), tail);
      Associate(blanks, name, gap, afterLabels);
    }
    assert ParseName(TrimSpace(input)) == Ok(afterName, name) by {
      if |gap| > 0 {
        assert afterName[0] == gap[0];
      } else {
        assert afterName[0] == RenderValue(v)[0];
      }
      MetricName(blanks, name, afterName);
    }
    assert ParseLabels(afterName) == Ok(afterLabels, map[]) by {
      ValueStart(v, tail);
      ParseLabelsWithoutBrace(gap, afterLabels);
    }
    assert ParseValue(afterLabels) == Ok(tail, v) by {
      NoBlanks(RenderValue(v), tail);
      ParseValueRoundTrip([], v, tail);
    }
    MetricSteps(input, afterName, name, afterLabels, map[]);
  }

  /** A sample line that does not start with a name is reported by the name rule. */
  lemma ParseMetricBadName(blanks: string, s: string)
    requires All(blanks, Blank)
    requires s == [] || (!IsBlank(s[0]) && !IsNameStart(s[0]))
    ensures ParseMetric(blanks + s) == Err(ParseNameError(s))
  {
    TrimSpaceOf(blanks, s);
    assert [] + s == s;
    TrimSpaceOf([], s);
  }

  /** A failure in the label set is the failure of the whole line. */
  lemma ParseMetricBadLabels(blanks: string, name: string, rest: string)
    requires All(blanks, Blank)
    requires ValidName(name)
    requires rest == [] || !IsNameChar(rest[0])
    requires ParseLabels(rest).Err?
    ensures ParseMetric(blanks + name + rest) == Err(ParseLabels(rest).error)
  {
    MetricName(blanks, name, rest);
  }

  /** A name with no value after it, or followed by text that is no value, fails with the text where the value should start. */
  lemma ParseMetricBadValue(blanks: string, name: string, gap: string, s: string)
    requires All(blanks, Blank) && All(gap, Blank)
    requires ValidName(name)
    requires |gap| > 0 || s == [] || !IsNameChar(s[0])
    requires s == [] || !(IsBlank(s[0]) || IsDigit(s[0]) || s[0] == '+' || s[0] == '-' || s[0] == '.' || s[0] == 'N' || s[0] == '{')
    ensures ParseMetric(blanks + name + gap + s) == Err(ParseFloatError(s))
  {
    var afterName := gap + s;
    Associate3(blanks + name, gap, s);
    NameEndsBeforeGap(gap, s);
    MetricName(blanks, name, afterName);
    ParseLabelsWithoutBrace(gap, s);
    NoValueAt(s);
    MetricSteps(blanks + name + gap + s, afterName, name, s, map[]);
  }

  lemma NameEndsBeforeGap(gap: string, s: string)
    requires All(gap, Blank)
    requires |gap| > 0 || s == [] || !IsNameChar(s[0])
    ensures gap + s == [] || !IsNameChar((gap + s)[0])
  {
    if |gap| > 0 {
      assert (gap + s)[0] == gap[0];
    } else {
      assert gap + s == s;
    }
  }

  /** Text that no value can start with, and no blanks in front of it. */
  lemma NoValueAt(s: string)
    requires s == [] || !(IsBlank(s[0]) || IsDigit(s[0]) || s[0] == '+' || s[0] == '-' || s[0] == '.' || s[0] == 'N')
    ensures ParseValue(s) == Err(ParseFloatError(s))
  {
    assert [] + s == s;
    ParseValueRejects([], s);
  }

  /** Whatever `Metric::parse` leaves is a suffix of its input. */
  lemma ParseMetricSuffix(input: string)
    ensures ParseMetric(input).Ok? ==> IsSuffix(ParseMetric(input).rest, input)
  {
    if ParseMetric(input).Ok? {
      var t := TrimSpace(input);
      var n := ParseName(t);
      var l := ParseLabels(n.rest);
      ParseLabelsSuffix(n.rest);
      ParseValueSound(l.rest);
      SuffixTransitive(ParseMetric(input).rest, l.rest, n.rest);
      SuffixTransitive(ParseMetric(input).rest, n.rest, t);
      SuffixTransitive(ParseMetric(input).rest, t, input);
    }
  }
}

=== FILE: names.dfy ===
/**
 `parse_name`: after skipping blanks, the longest prefix of the form
 `[a-zA-Z_][a-zA-Z0-9_]*`.
 */
module Names {
  import opened Text
  import opened Parsing

  /** A metric or label name. */
  predicate ValidName(n: string) {
    |n| > 0 && IsNameStart(n[0]) && All(n, NameChar)
  }

  /** Length of the name at the front of `t`: a `take_while1` of name-start characters followed by a `take_while` of name characters. */
  function NameLength(t: string): (n: nat)
    ensures n <= |t|
    ensures n > 0 <==> |t| > 0 && IsNameStart(t[0])
    ensures n > 0 ==> ValidName(t[..n])
    ensures n > 0 ==> n == Span(t, NameChar)
  {
    var a := Span(t, NameStart);
    if a == 0 then
      0
    else
      var b := Span(t[a..], NameChar);
      var name := t[..a + b];
      assert name[0] == t[..a][0];
      forall i | 0 <= i < |name|
        ensures IsNameChar(name[i])
      {
        if i < a {
          assert name[i] == t[..a][i];
        } else {
          assert name[i] == t[a..][..b][i - a];
        }
      }
      assert a + b == |t| || t[a + b] == t[a..][b];
      assert t == name + t[a + b..];
      SpanOf(name, t[a + b..], NameChar);
      a + b
  }

  function ParseName(input: string): (r: IResult<string>)
    ensures var t := TrimSpace(input);
      && (r.Ok? <==> |t| > 0 && IsNameStart(t[0]))
      && (r.Ok? ==> ValidName(r.value) && t == r.value + r.rest)
      && (r.Ok? ==> r.rest == [] || !IsNameChar(r.rest[0]))
      && (r.Err? ==> r.error == ParseNameError(t))
    ensures r.Ok? ==> IsSuffix(r.rest, input) && |r.rest| < |input|
  {
    var t := TrimSpace(input);
    var n := NameLength(t);
    if n == 0 then
      Err(ParseNameError(t))
    else
      assert t == t[..n] + t[n..];
      SuffixTransitive(t[n..], t, input);
      Ok(t[n..], t[..n])
  }

  /** Any blanks, then a name, then text that cannot continue the name: exactly that name is read and exactly that text is left. */
  lemma ParseNameRoundTrip(blanks: string, name: string, tail: string)
    requires All(blanks, Blank)
    requires ValidName(name)
    requires tail == [] || !IsNameChar(tail[0])
    ensures ParseName(blanks + name + tail) == Ok(tail, name)
  {
    assert blanks + name + tail == blanks + (name + tail);
    TrimSpaceOf(blanks, name + tail);
    SpanOf(name, tail, NameChar);
    assert (name + tail)[..|name|] == name;
  }

  /** A name with no blanks before it, followed by text that cannot continue it. */
  lemma ParseNameOf(name: string, tail: string)
    requires ValidName(name)
    requires tail == [] || !IsNameChar(tail[0])
    ensures ParseName(name + tail) == Ok(tail, name)
  {
    assert name + tail == [] + name + tail;
    ParseNameRoundTrip([], name, tail);
  }

  /** A digit cannot start a name, so input such as `99` is rejected. */
  lemma ParseNameRejectsDigitFirst(blanks: string, s: string)
    requires All(blanks, Blank)
    requires |s| > 0 && IsDigit(s[0])
    ensures ParseName(blanks + s) == Err(ParseNameError(s))
  {
    TrimSpaceOf(blanks, s);
    assert !IsNameStart(s[0]);
  }

  /** A case of the name test: `abc_def` wrapped in blanks and followed by `  .`. */
  lemma ParseNameExampleSimple()
    ensures ParseName("  \t abc_def  .") == Ok("  .", "abc_def")
  {
    assert "  \t abc_def  ." == "  \t " + "abc_def" + "  .";
    ParseNameRoundTrip("  \t ", "abc_def", "  .");
  }

  /** A case of the name test: underscores and digits inside a name. */
  lemma ParseNameExampleUnderscores()
    ensures ParseName("  \t __9A0bc_def__  .") == Ok("  .", "__9A0bc_def__")
  {
    assert "  \t __9A0bc_def__  ." == "  \t " + "__9A0bc_def__" + "  .";
    ParseNameRoundTrip("  \t ", "__9A0bc_def__", "  .");
  }

  /** A case of the name test: `99` is not a name. */
  lemma ParseNameExampleDigits()
    ensures ParseName("  \t 99  .").Err?
  {
    assert "  \t 99  ." == "  \t " + "99  .";
    ParseNameRejectsDigitFirst("  \t ", "99  .");
  }
}

=== FILE: parsing.dfy ===
/**
 The result and error types every rule of the line grammar returns: either the
 remaining input together with the parsed value, or a typed error that carries
 the input at the point of failure.
 */
module Parsing {

  datatype Option<+T> = None | Some(value: T)

  /** The error variants the line parser raises. The crate root that declares
      them is not part of this model; their names and payloads follow their uses. */
  datatype ParserError =
    | ParseNameError(input: string)
    | ParseFloatError(input: string)
    | ExpectedToken(expected: string, input: string)
    | InvalidMetricKind(input: string)
      /** a plain combinator mismatch, such as a missing `=` */
    | Nom(input: string)

  /** What one piece of a rule yields when the rule reports no error of its own: no match, or the piece and the input after it. */
  datatype Scan<+T> = NoMatch | Match(value: T, rest: string)

  /** nom's `IResult`: remaining input and value, or an error. */
  datatype IResult<+T> = Ok(rest: string, value: T) | Err(error: ParserError)
}

=== FILE: text.dfy ===
/**
 Character classes and the whitespace skippers shared by every rule of the
 line grammar: `trim_space` and `sp` (spaces and tabs only) and `str::trim`
 (Unicode White_Space, used once by the line classifier).
 */
module Text {

  /** Horizontal blanks: the only characters `trim_space` and `sp` skip. */
  predicate IsBlank(c: char) {
    c == ' ' || c == '\t'
  }

  /** The Unicode White_Space property, which is what `char::is_whitespace` and so `str::trim` use. */
  predicate IsWhitespace(c: char) {
    || ('\t' <= c <= '\r')
    || c == ' '
    || c == '\U{0085}'
    || c == '\U{00A0}'
    || c == '\U{1680}'
    || ('\U{2000}' <= c <= '\U{200A}')
    || c == '\U{2028}'
    || c == '\U{2029}'
    || c == '\U{202F}'
    || c == '\U{205F}'
    || c == '\U{3000}'
  }

  predicate IsAsciiLetter(c: char) {
    ('a' <= c <= 'z') || ('A' <= c <= 'Z')
  }

  predicate IsDigit(c: char) {
    '0' <= c <= '9'
  }

  /** May start a name: `[a-zA-Z_]`. */
  predicate IsNameStart(c: char) {
    IsAsciiLetter(c) || c == '_'
  }

  /** May continue a name: `[a-zA-Z0-9_]`. */
  predicate IsNameChar(c: char) {
    IsNameStart(c) || IsDigit(c)
  }

  /**
   * Double quote and backslash are the characters a run of plain text stops at; every other character is copied as is.
   * A line feed counts as plain here, although the doc comment at line.rs:119-121 says it has to be escaped: the
   * fragment parser only refuses `"` and `\`, so a raw line feed inside a value is accepted.
   */
  predicate IsPlain(c: char) {
    c != '"' && c != '\\'
  }

  /** The character classes the grammar scans runs of. */
  datatype CharClass = Blank | White | Digit | NameStart | NameChar | Plain

  predicate In(k: CharClass, c: char) {
    match k
    case Blank => IsBlank(c)
    case White => IsWhitespace(c)
    case Digit => IsDigit(c)
    case NameStart => IsNameStart(c)
    case NameChar => IsNameChar(c)
    case Plain => IsPlain(c)
  }

  predicate All(s: string, k: CharClass) {
    forall i :: 0 <= i < |s| ==> In(k, s[i])
  }

  /** nom's `tag`: `s` begins with `prefix`. */
  predicate StartsWith(s: string, prefix: string) {
    |prefix| <= |s| && forall i :: 0 <= i < |prefix| ==> s[i] == prefix[i]
  }

  lemma StartsWithSplit(s: string, prefix: string)
    requires StartsWith(s, prefix)
    ensures s == prefix + s[|prefix|..]
  {
    assert s[..|prefix|] == prefix;
  }

  lemma StartsWithConcat(prefix: string, s: string)
    ensures StartsWith(prefix + s, prefix)
    ensures (prefix + s)[|prefix|..] == s
  {
    assert forall i :: 0 <= i < |prefix| ==> (prefix + s)[i] == prefix[i];
  }

  /** `r` is what is left of `s` after some prefix was consumed. */
  predicate IsSuffix(r: string, s: string) {
    |r| <= |s| && s[|s| - |r|..] == r
  }

  lemma SuffixSplit(r: string, s: string)
    requires IsSuffix(r, s)
    ensures s == s[..|s| - |r|] + r
  {
  }

  lemma SuffixTransitive(a: string, b: string, c: string)
    requires IsSuffix(a, b) && IsSuffix(b, c)
    ensures IsSuffix(a, c)
  {
    assert c[|c| - |a|..] == c[|c| - |b|..][|b| - |a|..];
  }

  lemma SuffixOfSuffix(b: string, c: string)
    requires IsSuffix(b, c)
    ensures forall a :: IsSuffix(a, b) ==> IsSuffix(a, c)
  {
    forall a | IsSuffix(a, b)
      ensures IsSuffix(a, c)
    {
      SuffixTransitive(a, b, c);
    }
  }

  lemma Associate3(a: string, b: string, c: string)
    ensures a + b + c == a + (b + c)
  {
  }

  lemma Associate(a: string, b: string, c: string, d: string)
    ensures a + b + c + d == a + (b + (c + d))
    ensures (a + b + c) + d == a + b + c + d
  {
  }

  lemma Associate5(a: string, b: string, c: string, d: string, e: string)
    ensures a + b + c + d + e == a + (b + (c + (d + e)))
  {
    Associate(a, b, c, d + e);
    assert a + b + c + d + e == (a + b + c) + (d + e);
  }

  lemma SuffixOfConcat(p: string, s: string)
    ensures IsSuffix(s, p + s)
  {
    assert (p + s)[|p|..] == s;
  }

  /** Length of the longest prefix of `s` whose characters are all in class `k` (nom's `take_while`). */
  function Span(s: string, k: CharClass): (n: nat)
    ensures n <= |s|
    ensures All(s[..n], k)
    ensures n == |s| || !In(k, s[n])
  {
    if |s| == 0 || !In(k, s[0]) then 0 else 1 + Span(s[1..], k)
  }

  /** A maximal prefix is unique: any split into a run of class `k` and a rest not starting with one is the one `Span` finds. */
  lemma {:induction false} SpanOf(run: string, rest: string, k: CharClass)
    requires All(run, k)
    requires rest == [] || !In(k, rest[0])
    ensures Span(run + rest, k) == |run|
  {
    if |run| > 0 {
      assert (run + rest)[1..] == run[1..] + rest;
      SpanOf(run[1..], rest, k);
    } else {
      assert run + rest == rest;
    }
  }

  /** `trim_space`: drop leading spaces and tabs. */
  function TrimSpace(s: string): (r: string)
    ensures IsSuffix(r, s)
    ensures All(s[..|s| - |r|], Blank)
    ensures r == [] || !IsBlank(r[0])
  {
    if |s| > 0 && IsBlank(s[0]) then TrimSpace(s[1..]) else s
  }

  /** The blanks that `trim_space` drops from the front of `s`. */
  function Leading(s: string): string {
    s[..|s| - |TrimSpace(s)|]
  }

  lemma LeadingSplit(s: string)
    ensures All(Leading(s), Blank)
    ensures s == Leading(s) + TrimSpace(s)
  {
    SuffixSplit(TrimSpace(s), s);
  }

  /** `sp`: the run of spaces and tabs at the front of `s`, returned as (remaining input, blanks consumed). */
  function Sp(s: string): (r: (string, string))
    ensures r.1 + r.0 == s
    ensures All(r.1, Blank)
    ensures r.0 == [] || !IsBlank(r.0[0])
  {
    var n := Span(s, Blank);
    assert s[..n] + s[n..] == s;
    (s[n..], s[..n])
  }

  /** Skipping blanks in front of a text that does not start with a blank leaves exactly that text. */
  lemma {:induction false} TrimSpaceOf(blanks: string, s: string)
    requires All(blanks, Blank)
    requires s == [] || !IsBlank(s[0])
    ensures TrimSpace(blanks + s) == s
  {
    if |blanks| > 0 {
      assert (blanks + s)[1..] == blanks[1..] + s;
      TrimSpaceOf(blanks[1..], s);
    } else {
      assert blanks + s == s;
    }
  }

  /** `trim_space` leaves alone a text that does not start with a blank. */
  lemma TrimSpaceOfSolid(s: string)
    requires s == [] || !IsBlank(s[0])
    ensures TrimSpace(s) == s
  {
  }

  /** Leading blanks make no difference to `trim_space`. */
  lemma TrimSpaceSkipsBlanks(blanks: string, s: string)
    requires All(blanks, Blank)
    ensures TrimSpace(blanks + s) == TrimSpace(s)
  {
    var t := TrimSpace(s);
    var b := s[..|s| - |t|];
    SuffixSplit(t, s);
    Associate3(blanks, b, t);
    AllConcat(blanks, b, Blank);
    TrimSpaceOf(blanks + b, t);
  }

  lemma AllConcat(a: string, b: string, k: CharClass)
    requires All(a, k) && All(b, k)
    ensures All(a + b, k)
  {
    forall i | 0 <= i < |a + b|
      ensures In(k, (a + b)[i])
    {
      if i >= |a| {
        assert (a + b)[i] == b[i - |a|];
      }
    }
  }

  /** `sp` and `trim_space` are two spellings of the same skip. */
  lemma SpAgreesWithTrimSpace(s: string)
    ensures Sp(s).0 == TrimSpace(s)
  {
    TrimSpaceOf(Sp(s).1, Sp(s).0);
  }

  /** `sp` in front of a text that does not start with a blank consumes exactly the blanks. */
  lemma SpOf(blanks: string, s: string)
    requires All(blanks, Blank)
    requires s == [] || !IsBlank(s[0])
    ensures Sp(blanks + s).0 == s
  {
    SpAgreesWithTrimSpace(blanks + s);
    TrimSpaceOf(blanks, s);
  }

  /** `sp` in front of a text that does not start with a blank consumes nothing. */
  lemma SpOfSolid(s: string)
    requires s == [] || !IsBlank(s[0])
    ensures Sp(s).0 == s
  {
    assert [] + s == s;
    SpOf([], s);
  }

  /** Leading blanks make no difference to `sp`. */
  lemma SpSkipsBlanks(blanks: string, s: string)
    requires All(blanks, Blank)
    ensures Sp(blanks + s).0 == Sp(s).0
  {
    SpAgreesWithTrimSpace(blanks + s);
    SpAgreesWithTrimSpace(s);
    TrimSpaceSkipsBlanks(blanks, s);
  }

  lemma SpSuffix(s: string)
    ensures IsSuffix(Sp(s).0, s)
  {
    SuffixOfConcat(Sp(s).1, Sp(s).0);
  }

  lemma DropOneSuffix(s: string)
    requires |s| > 0
    ensures IsSuffix(s[1..], s)
  {
  }

  /** `str::trim_start`. */
  function TrimStart(s: string): (r: string)
    ensures IsSuffix(r, s)
    ensures All(s[..|s| - |r|], White)
    ensures r == [] || !IsWhitespace(r[0])
  {
    if |s| > 0 && IsWhitespace(s[0]) then TrimStart(s[1..]) else s
  }

  /** `str::trim_end`. */
  function TrimEnd(s: string): (r: string)
    ensures |r| <= |s| && s[..|r|] == r
    ensures All(s[|r|..], White)
    ensures r == [] || !IsWhitespace(r[|r| - 1])
  {
    if |s| > 0 && IsWhitespace(s[|s| - 1]) then
      var r := TrimEnd(s[..|s| - 1]);
      assert s[|r|..] == s[..|s| - 1][|r|..] + [s[|s| - 1]];
      r
    else
      s
  }

  /** `str::trim`: drop Unicode whitespace at both ends. */
  function Trim(s: string): (r: string)
  {
    TrimEnd(TrimStart(s))
  }

  /** A line trims to nothing exactly when it is all whitespace. */
  lemma TrimEmptyIffWhitespace(s: string)
    ensures Trim(s) == [] <==> All(s, White)
  {
    var t := TrimStart(s);
    assert s == s[..|s| - |t|] + t;
    if Trim(s) == [] {
      assert All(t, White);
    }
    if All(s, White) {
      assert All(t, White);
    }
  }

  /** Whitespace after a text that ends in a non-whitespace character is all that `trim_end` removes. */
  lemma {:induction false} TrimEndAfterSolid(core: string, tail: string)
    requires |core| > 0 && !IsWhitespace(core[|core| - 1])
    ensures TrimEnd(core + tail) == core + TrimEnd(tail)
  {
    if |tail| == 0 {
      assert core + tail == core;
    } else if IsWhitespace(tail[|tail| - 1]) {
      assert (core + tail)[..|core + tail| - 1] == core + tail[..|tail| - 1];
      TrimEndAfterSolid(core, tail[..|tail| - 1]);
    } else {
      assert (core + tail)[|core + tail| - 1] == tail[|tail| - 1];
    }
  }

  /** Leading whitespace in front of a text that does not start with whitespace is all that `trim_start` removes. */
  lemma {:induction false} TrimStartOf(lead: string, s: string)
    requires All(lead, White)
    requires s == [] || !IsWhitespace(s[0])
    ensures TrimStart(lead + s) == s
  {
    if |lead| > 0 {
      assert (lead + s)[1..] == lead[1..] + s;
      TrimStartOf(lead[1..], s);
    } else {
      assert lead + s == s;
    }
  }

  /** `str::trim` removes exactly the whitespace around a text that starts and ends with non-whitespace. */
  lemma TrimAround(lead: string, core: string, trail: string)
    requires All(lead, White) && All(trail, White)
    requires |core| > 0 && !IsWhitespace(core[0]) && !IsWhitespace(core[|core| - 1])
    ensures Trim(lead + core + trail) == core
  {
    assert lead + core + trail == lead + (core + trail);
    assert (core + trail)[0] == core[0];
    TrimStartOf(lead, core + trail);
    TrimEndAfterSolid(core, trail);
    assert TrimEnd(trail) == [];
    assert core + [] == core;
  }

  /** A line that starts and ends with non-whitespace is left alone by `str::trim`. */
  lemma TrimOfSolid(s: string)
    requires |s| > 0 && !IsWhitespace(s[0]) && !IsWhitespace(s[|s| - 1])
    ensures Trim(s) == s
  {
  }
}

=== FILE: values.dfy ===
/**
 `Metric::parse_value`: after skipping blanks, the first of the tags `+Inf`,
 `-Inf`, `Nan` that matches, or else a decimal floating-point literal.

 The numeric value is kept as the literal that was recognised (sign, integer
 digits, fraction, exponent), not as a binary64 number: the decimal-to-binary
 conversion is left out.
 */
module Values {
  import opened Text
  import opened Parsing

  datatype Sign = NoSign | Plus | Minus

  /** The part before the exponent: `digits ["." [digits]]` or `"." digits`. */
  datatype Mantissa = Mantissa(whole: string, dot: bool, fraction: string)

  /** Absent, or `e`/`E` (`upper`), an optional sign and at least one digit. */
  datatype Exponent = NoExponent | Exponent(upper: bool, sign: Sign, digits: string)

  datatype FloatLit = FloatLit(sign: Sign, mantissa: Mantissa, exponent: Exponent)

  /** A sample value: the three sentinels or a decimal literal. */
  datatype Value = PosInf | NegInf | NaN | Num(literal: FloatLit)

  predicate WellFormedMantissa(m: Mantissa) {
    && All(m.whole, Digit)
    && All(m.fraction, Digit)
    && (m.dot || m.fraction == [])
    && (|m.whole| > 0 || (m.dot && |m.fraction| > 0))
  }

  predicate WellFormedExponent(e: Exponent) {
    e.Exponent? ==> |e.digits| > 0 && All(e.digits, Digit)
  }

  predicate WellFormed(lit: FloatLit) {
    WellFormedMantissa(lit.mantissa) && WellFormedExponent(lit.exponent)
  }

  function RenderSign(s: Sign): string {
    match s
    case NoSign => ""
    case Plus => "+"
    case Minus => "-"
  }

  function RenderMantissa(m: Mantissa): string {
    m.whole + (if m.dot then "." else "") + m.fraction
  }

  function RenderExponent(e: Exponent): string {
    match e
    case NoExponent => ""
    case Exponent(upper, s, d) => (if upper then "E" else "e") + RenderSign(s) + d
  }

  /** The text of a literal. */
  function RenderFloat(lit: FloatLit): string {
    RenderSign(lit.sign) + RenderMantissa(lit.mantissa) + RenderExponent(lit.exponent)
  }

  /** The text of a value, as the exposition format writes it. */
  function RenderValue(v: Value): string {
    match v
    case PosInf => "+Inf"
    case NegInf => "-Inf"
    case NaN => "Nan"
    case Num(lit) => RenderFloat(lit)
  }

  /** An optional `+` or `-`. */
  function ScanSign(s: string): (r: Scan<Sign>)
    ensures r.Match? && s == RenderSign(r.value) + r.rest
  {
    if |s| > 0 && s[0] == '+' then Match(Plus, s[1..])
    else if |s| > 0 && s[0] == '-' then Match(Minus, s[1..])
    else Match(NoSign, s)
  }

  /** The mantissa alternatives, tried in order: digits with an optional fraction, then `.` with digits. */
  function ScanMantissa(s: string): (r: Scan<Mantissa>)
    ensures r.Match? ==> WellFormedMantissa(r.value)
  {
    var d := Span(s, Digit);
    var after := s[d..];
    if |after| > 0 && after[0] == '.' then
      var f := Span(after[1..], Digit);
      if d == 0 && f == 0 then
        NoMatch
      else
        Match(Mantissa(s[..d], true, after[1..][..f]), after[1..][f..])
    else if d == 0 then
      NoMatch
    else
      Match(Mantissa(s[..d], false, []), after)
  }

  /** What the mantissa scan consumed is the text of the mantissa it returns. */
  lemma ScanMantissaSound(s: string)
    ensures var r := ScanMantissa(s); r.Match? ==> s == RenderMantissa(r.value) + r.rest
  {
    var r := ScanMantissa(s);
    var d := Span(s, Digit);
    var after := s[d..];
    assert s == s[..d] + after;
    if r.Match? {
      if |after| > 0 && after[0] == '.' {
        var f := Span(after[1..], Digit);
        var frac := after[1..][..f];
        assert r == Match(Mantissa(s[..d], true, frac), after[1..][f..]);
        assert after == "." + (frac + after[1..][f..]);
        Associate(s[..d], ".", frac, after[1..][f..]);
      } else {
        assert r == Match(Mantissa(s[..d], false, []), after);
        assert RenderMantissa(r.value) == s[..d];
      }
    }
  }

  /** The optional exponent. A marker without digits after it fails the whole literal (nom's `cut`). */
  function ScanExponent(s: string): (r: Scan<Exponent>)
    ensures r.Match? ==> WellFormedExponent(r.value)
  {
    if |s| > 0 && (s[0] == 'e' || s[0] == 'E') then
      var sign := ScanSign(s[1..]);
      var d := Span(sign.rest, Digit);
      if d > 0 then
        Match(Exponent(s[0] == 'E', sign.value, sign.rest[..d]), sign.rest[d..])
      else
        NoMatch
    else
      Match(NoExponent, s)
  }

  /** What the exponent scan consumed is the text of the exponent it returns. */
  lemma ScanExponentSound(s: string)
    ensures var r := ScanExponent(s); r.Match? ==> s == RenderExponent(r.value) + r.rest
  {
    var r := ScanExponent(s);
    if r.Match? && |s| > 0 && (s[0] == 'e' || s[0] == 'E') {
      var sign := ScanSign(s[1..]);
      var d := Span(sign.rest, Digit);
      var marker := if s[0] == 'E' then "E" else "e";
      assert r == Match(Exponent(s[0] == 'E', sign.value, sign.rest[..d]), sign.rest[d..]);
      assert RenderExponent(r.value) == marker + RenderSign(sign.value) + sign.rest[..d];
      assert s == marker + s[1..];
      assert sign.rest == sign.rest[..d] + sign.rest[d..];
      Associate(marker, RenderSign(sign.value), sign.rest[..d], sign.rest[d..]);
    }
  }

  /** nom's `recognize_float`: sign, mantissa, optional exponent. */
  function ScanFloat(s: string): (r: Scan<FloatLit>)
    ensures r.Match? ==> WellFormed(r.value)
  {
    var sign := ScanSign(s);
    var mantissa := ScanMantissa(sign.rest);
    if mantissa.NoMatch? then
      NoMatch
    else
      var exponent := ScanExponent(mantissa.rest);
      if exponent.NoMatch? then
        NoMatch
      else
        Match(FloatLit(sign.value, mantissa.value, exponent.value), exponent.rest)
  }

  /** What the literal scan consumed is the text of the literal it returns. */
  lemma ScanFloatSound(s: string)
    ensures var r := ScanFloat(s); r.Match? ==> s == RenderFloat(r.value) + r.rest
  {
    var sign := ScanSign(s);
    var mantissa := ScanMantissa(sign.rest);
    if mantissa.Match? {
      ScanMantissaSound(sign.rest);
      var exponent := ScanExponent(mantissa.rest);
      ScanExponentSound(mantissa.rest);
      if exponent.Match? {
        Associate(RenderSign(sign.value), RenderMantissa(mantissa.value), RenderExponent(exponent.value), exponent.rest);
      }
    }
  }

  /** Tags are tried before the numeric literal, in the order `+Inf`, `-Inf`, `Nan`; any failure reports the blank-trimmed input. */
  function ParseValue(input: string): (r: IResult<Value>)
    ensures r.Ok? && r.value.Num? ==> WellFormed(r.value.literal)
    ensures r.Err? ==> r.error == ParseFloatError(TrimSpace(input))
  {
    ValueAt(TrimSpace(input))
  }

  /** The value alternatives once the blanks are skipped. */
  function ValueAt(t: string): (r: IResult<Value>)
    ensures r.Ok? && r.value.Num? ==> WellFormed(r.value.literal)
    ensures r.Err? ==> r.error == ParseFloatError(t)
  {
    if StartsWith(t, "+Inf") then Ok(t[4..], PosInf)
    else if StartsWith(t, "-Inf") then Ok(t[4..], NegInf)
    else if StartsWith(t, "Nan") then Ok(t[3..], NaN)
    else
      var lit := ScanFloat(t);
      if lit.Match? then Ok(lit.rest, Num(lit.value)) else Err(ParseFloatError(t))
  }

  /** On success, the blank-trimmed input is the text of the value followed by the remainder. */
  lemma ParseValueSound(input: string)
    ensures var r := ParseValue(input);
      r.Ok? ==> TrimSpace(input) == RenderValue(r.value) + r.rest && IsSuffix(r.rest, input)
  {
    var t := TrimSpace(input);
    var r := ParseValue(input);
    if r.Ok? {
      ValueText(input);
      SuffixOfConcat(RenderValue(r.value), r.rest);
      SuffixTransitive(r.rest, t, input);
    }
  }

  lemma ValueText(input: string)
    ensures var r := ParseValue(input); r.Ok? ==> TrimSpace(input) == RenderValue(r.value) + r.rest
  {
    ValueAtText(TrimSpace(input));
  }

  lemma ValueAtText(t: string)
    ensures var r := ValueAt(t); r.Ok? ==> t == RenderValue(r.value) + r.rest
  {
    if StartsWith(t, "+Inf") {
      StartsWithSplit(t, "+Inf");
    } else if StartsWith(t, "-Inf") {
      StartsWithSplit(t, "-Inf");
    } else if StartsWith(t, "Nan") {
      StartsWithSplit(t, "Nan");
    } else {
      ScanFloatSound(t);
    }
  }

  /** Text that cannot extend a numeric literal: not a digit, `.`, `e` or `E`. */
  predicate Delimits(tail: string) {
    tail == [] || !(IsDigit(tail[0]) || tail[0] == '.' || tail[0] == 'e' || tail[0] == 'E')
  }

  lemma {:induction false} SpanOfDigits(d: string, tail: string)
    requires All(d, Digit)
    requires tail == [] || !IsDigit(tail[0])
    ensures Span(d + tail, Digit) == |d|
    ensures (d + tail)[..|d|] == d && (d + tail)[|d|..] == tail
  {
    SpanOf(d, tail, Digit);
  }

  lemma ScanSignRoundTrip(sign: Sign, rest: string)
    requires rest == [] || (rest[0] != '+' && rest[0] != '-')
    ensures ScanSign(RenderSign(sign) + rest) == Match(sign, rest)
  {
    if sign != NoSign {
      assert (RenderSign(sign) + rest)[1..] == rest;
    }
  }

  lemma ScanExponentRoundTrip(e: Exponent, tail: string)
    requires WellFormedExponent(e)
    requires e.NoExponent? ==> tail == [] || (tail[0] != 'e' && tail[0] != 'E')
    requires tail == [] || !IsDigit(tail[0])
    ensures ScanExponent(RenderExponent(e) + tail) == Match(e, tail)
  {
    if e.Exponent? {
      var marker := if e.upper then "E" else "e";
      var body := RenderSign(e.sign) + (e.digits + tail);
      var s := RenderExponent(e) + tail;
      Associate(marker, RenderSign(e.sign), e.digits, tail);
      assert s == marker + body;
      assert s[1..] == body;
      ScanSignRoundTrip(e.sign, e.digits + tail);
      SpanOfDigits(e.digits, tail);
    } else {
      assert RenderExponent(e) + tail == tail;
    }
  }

  lemma ScanMantissaRoundTrip(m: Mantissa, tail: string)
    requires WellFormedMantissa(m)
    requires tail == [] || !IsDigit(tail[0])
    requires !m.dot ==> tail == [] || tail[0] != '.'
    ensures ScanMantissa(RenderMantissa(m) + tail) == Match(m, tail)
  {
    var s := RenderMantissa(m) + tail;
    if m.dot {
      var after := "." + (m.fraction + tail);
      Associate(m.whole, ".", m.fraction, tail);
      assert s == m.whole + after;
      SpanOfDigits(m.whole, after);
      assert after[1..] == m.fraction + tail;
      SpanOfDigits(m.fraction, tail);
    } else {
      assert s == m.whole + tail;
      SpanOfDigits(m.whole, tail);
    }
  }

  /** Every well-formed literal followed by a delimiter is recognised as exactly itself. */
  lemma ScanFloatRoundTrip(lit: FloatLit, tail: string)
    requires WellFormed(lit)
    requires Delimits(tail)
    ensures ScanFloat(RenderFloat(lit) + tail) == Match(lit, tail)
  {
    var m := RenderMantissa(lit.mantissa);
    var after := RenderExponent(lit.exponent) + tail;
    Associate(RenderSign(lit.sign), m, RenderExponent(lit.exponent), tail);
    assert m[0] == if |lit.mantissa.whole| > 0 then lit.mantissa.whole[0] else '.';
    ScanSignRoundTrip(lit.sign, m + after);
    ScanExponentRoundTrip(lit.exponent, tail);
    assert after == [] || !IsDigit(after[0]);
    ScanMantissaRoundTrip(lit.mantissa, after);
  }

  /** The sentinel tags win over the literal grammar and consume exactly their own text. */
  lemma ParseValueSentinel(blanks: string, v: Value, tail: string)
    requires All(blanks, Blank)
    requires !v.Num?
    ensures ParseValue(blanks + RenderValue(v) + tail) == Ok(tail, v)
  {
    var t := RenderValue(v) + tail;
    Associate3(blanks, RenderValue(v), tail);
    SentinelAt(v, tail);
    TrimSpaceOf(blanks, t);
  }

  /** Each sentinel, once the blanks are skipped, is read by its own tag. */
  lemma SentinelAt(v: Value, tail: string)
    requires !v.Num?
    ensures var t := RenderValue(v) + tail; |t| > 0 && !IsBlank(t[0])
    ensures ValueAt(RenderValue(v) + tail) == Ok(tail, v)
  {
    var text := RenderValue(v);
    var t := text + tail;
    StartsWithConcat(text, tail);
    assert t[0] == text[0];
    if v == NaN {
      assert !StartsWith(t, "+Inf") && !StartsWith(t, "-Inf");
    } else if v == NegInf {
      assert !StartsWith(t, "+Inf");
    }
  }

  /** A literal's text starts with a sign, a digit or `.`, and a sign is followed by a digit or `.`. */
  lemma RenderFloatStart(lit: FloatLit, tail: string)
    requires WellFormed(lit)
    ensures var t := RenderFloat(lit) + tail;
      && |t| > 0
      && (t[0] == '+' || t[0] == '-' || IsDigit(t[0]) || t[0] == '.')
      && (t[0] == '+' || t[0] == '-' ==> |t| > 1 && (IsDigit(t[1]) || t[1] == '.'))
  {
    var m := RenderMantissa(lit.mantissa);
    Associate(RenderSign(lit.sign), m, RenderExponent(lit.exponent), tail);
    assert m[0] == if |lit.mantissa.whole| > 0 then lit.mantissa.whole[0] else '.';
  }

  /** Text that starts like a literal does not start with a tag. */
  lemma NoTagBeforeLiteral(t: string)
    requires |t| > 0 && (t[0] == '+' || t[0] == '-' || IsDigit(t[0]) || t[0] == '.')
    requires t[0] == '+' || t[0] == '-' ==> |t| > 1 && (IsDigit(t[1]) || t[1] == '.')
    ensures !StartsWith(t, "+Inf") && !StartsWith(t, "-Inf") && !StartsWith(t, "Nan")
  {
  }

  /** Any value written out, then a delimiter, parses back to that value and leaves exactly the delimiter and what follows. */
  lemma ParseValueRoundTrip(blanks: string, v: Value, tail: string)
    requires All(blanks, Blank)
    requires v.Num? ==> WellFormed(v.literal)
    requires Delimits(tail)
    ensures ParseValue(blanks + RenderValue(v) + tail) == Ok(tail, v)
  {
    if v.Num? {
      var t := RenderFloat(v.literal) + tail;
      RenderFloatStart(v.literal, tail);
      assert blanks + RenderValue(v) + tail == blanks + t;
      TrimSpaceOf(blanks, t);
      NoTagBeforeLiteral(t);
      ScanFloatRoundTrip(v.literal, tail);
    } else {
      ParseValueSentinel(blanks, v, tail);
    }
  }

  lemma ScanFloatRejects(s: string)
    requires s == [] || !(IsDigit(s[0]) || s[0] == '+' || s[0] == '-' || s[0] == '.')
    ensures ScanFloat(s).NoMatch?
  {
    assert ScanSign(s).rest == s;
    assert Span(s, Digit) == 0;
  }

  /** Input that neither starts with a tag nor with a literal is reported with the blank-trimmed input. */
  lemma ParseValueRejects(blanks: string, s: string)
    requires All(blanks, Blank)
    requires s == [] || !(IsBlank(s[0]) || IsDigit(s[0]) || s[0] == '+' || s[0] == '-' || s[0] == '.' || s[0] == 'N')
    ensures ParseValue(blanks + s) == Err(ParseFloatError(s))
  {
    TrimSpaceOf(blanks, s);
    ScanFloatRejects(s);
    assert !StartsWith(s, "+Inf") && !StartsWith(s, "-Inf") && !StartsWith(s, "Nan");
  }
}

/** The cases of the value test, each wrapped in blanks and followed by `  .`. */
module ValuesExamples {
  import opened Text
  import opened Parsing
  import opened Values

  /** The test's wrapper: blanks and a tab before, two blanks and a dot after. */
  function Wrap(s: string): string {
    "  \t " + s + "  ."
  }

  lemma WrapParts()
    ensures All("  \t ", Blank) && Delimits("  .")
  {
  }

  /** A value written out and wrapped reads back as itself, leaving the wrapper's tail. */
  lemma WrappedValue(v: Value, text: string)
    requires v.Num? ==> WellFormed(v.literal)
    requires RenderValue(v) == text
    ensures ParseValue(Wrap(text)) == Ok("  .", v)
  {
    WrapParts();
    ParseValueRoundTrip("  \t ", v, "  .");
  }

  lemma ExamplePosInf()
    ensures ParseValue(Wrap("+Inf")) == Ok("  .", PosInf)
  {
    WrappedValue(PosInf, "+Inf");
  }

  lemma ExampleNegInf()
    ensures ParseValue(Wrap("-Inf")) == Ok("  .", NegInf)
  {
    WrappedValue(NegInf, "-Inf");
  }

  lemma ExampleNan()
    ensures ParseValue(Wrap("Nan")) == Ok("  .", NaN)
  {
    WrappedValue(NaN, "Nan");
  }

  /** A literal with no sign and no exponent. */
  function Unsigned(whole: string, dot: bool, fraction: string): Value {
    Num(FloatLit(NoSign, Mantissa(whole, dot, fraction), NoExponent))
  }

  lemma ExampleZero()
    ensures ParseValue(Wrap("0")) == Ok("  .", Unsigned("0", false, ""))
  {
    assert RenderValue(Unsigned("0", false, "")) == "0";
    WrappedValue(Unsigned("0", false, ""), "0");
  }

  lemma ExampleQuarter()
    ensures ParseValue(Wrap("0.25")) == Ok("  .", Unsigned("0", true, "25"))
  {
    assert RenderValue(Unsigned("0", true, "25")) == "0.25";
    WrappedValue(Unsigned("0", true, "25"), "0.25");
  }

  lemma ExampleNegative()
    ensures ParseValue(Wrap("-10.25")) == Ok("  .", Num(FloatLit(Minus, Mantissa("10", true, "25"), NoExponent)))
  {
    var v := Num(FloatLit(Minus, Mantissa("10", true, "25"), NoExponent));
    assert RenderValue(v) == "-10.25";
    WrappedValue(v, "-10.25");
  }

  lemma ExampleNegativeExponent()
    ensures ParseValue(Wrap("-10e-25")) == Ok("  .", Num(FloatLit(Minus, Mantissa("10", false, ""), Exponent(false, Minus, "25"))))
  {
    var v := Num(FloatLit(Minus, Mantissa("10", false, ""), Exponent(false, Minus, "25")));
    assert RenderValue(v) == "-10e-25";
    WrappedValue(v, "-10e-25");
  }

  lemma ExamplePositiveExponent()
    ensures ParseValue(Wrap("-10e+25")) == Ok("  .", Num(FloatLit(Minus, Mantissa("10", false, ""), Exponent(false, Plus, "25"))))
  {
    var v := Num(FloatLit(Minus, Mantissa("10", false, ""), Exponent(false, Plus, "25")));
    assert RenderValue(v) == "-10e+25";
    WrappedValue(v, "-10e+25");
  }

  lemma ExampleYear()
    ensures ParseValue(Wrap("2020")) == Ok("  .", Unsigned("2020", false, ""))
  {
    assert RenderValue(Unsigned("2020", false, "")) == "2020";
    WrappedValue(Unsigned("2020", false, ""), "2020");
  }

  /** A trailing dot with no fraction digits is a literal. */
  lemma ExampleTrailingDot()
    ensures ParseValue(Wrap("1.")) == Ok("  .", Unsigned("1", true, ""))
  {
    assert RenderValue(Unsigned("1", true, "")) == "1.";
    WrappedValue(Unsigned("1", true, ""), "1.");
  }
}
